=== FILE: README.md ===
# SBS-1 merge core of adsb_hub, in Dafny

`adsb_hub` reads the comma-separated SBS-1 ("BaseStation") feed of an ADS-B receiver
and merges the separate transmission messages of one aircraft into a single 22-column
row of a table. This project models that merge core and proves properties of it:

- `Strings` (strings.dfy): the parts of Python's `str` the core uses. `split` with an
  explicit separator, its inverse `join`, `isnumeric` and `int()` on text.
- `Sorting` (sorting.dfy): `sorted()` on the list of transmission tags an entry has seen.
- `Sbs1Protocol` (sbs1_protocol.dfy): `SBS1Entry` and `TransmissionMsgEntry`. An entry
  is a 22-slot row that starts from defaults. Each message is folded into it according
  to its transmission type, and it counts and logs the tags of its own aircraft.
- `Sbs1Parsing` (sbs1_parsing.dfy): `FIELDS`/`NUM_FIELDS` and the `SBS1Parser.process`
  state machine. The state is the last identifier seen, the current entry and the table,
  which is a sequence of rows. A Python exception is a `Crash`. It carries its cause and
  the table as it stood, because rows appended before the exception stay in the table.
- `Sbs1Tracks` (sbs1_tracks.dfy): whole aircraft tracks run through the state machine.
  They show which message sequences produce a row and what that row holds.
- `Ingest` (ingest.dfy): the body of the ingest loop in `main.py`. A decoded read is cut
  into lines at CRLF and into fields at commas. The leftover of the previous read goes in
  front of the first line. Candidates of exactly 22 fields go to `process` and any other
  candidate becomes the new leftover.

Slot values are `Str`, `Int`, `Float` or `Bool`. A `Float` keeps the text it was parsed
from. `int()` is an optional sign followed by ASCII digits. When it fails, the result is
`Err(InvalidInt(field))`, which is the model's name for Python's `ValueError`.

## Model

| member | source | states |
|---|---|---|
| Strings.Split | adsb_hub/main.py:50 | `str.split(sep)` gives at least one piece. Joining the pieces with `sep` gives the text back, and no piece contains `sep`. |
| Strings.SplitJoin | adsb_hub/main.py:50 | Splitting text that was joined from pieces gives the pieces back, if no piece holds the separator's first character. |
| Strings.SplitAfterFreePrefix | adsb_hub/main.py:50 | Text before the first occurrence of the separator splits off as a whole piece, and the rest splits on its own. That text may hold other characters of the separator, such as a bare CR before a CRLF. |
| Strings.FreeSplitsToItself | adsb_hub/main.py:50 | Text without the separator's first character is a single piece. |
| Strings.JoinFree | adsb_hub/main.py:50 | A character that occurs in no piece and not in the separator does not occur in the joined text. |
| Strings.SplitCount | adsb_hub/main.py:50 | A one-character separator cuts the text into one more piece than it has occurrences. |
| Strings.NatToDecimal | adsb_hub/sbs1_protocol.py:27 | The core never calls `str()`. This is Python's `str(n)` for naturals, the reference inverse that pins down the value `isnumeric()` and `int()` give: the text is numeric and its digits have value `n`. |
| Strings.ParseInt | adsb_hub/sbs1_protocol.py:44 | `int(text)` succeeds exactly on digits with an optional sign. On plain digits it gives their value. |
| Strings.ParseIntRoundTrip | adsb_hub/sbs1_protocol.py:44 | `int()` is checked against its reference inverse, `str()`, which the core itself never calls: `int(str(n)) == n` for every integer. |
| Strings.IsNumeric | adsb_hub/sbs1_protocol.py:27 | `isnumeric()` holds of non-empty digit text, which carries no sign. So `sbs1_int` sends a negative number to -1. |
| Sbs1Protocol.IsComplete | adsb_hub/sbs1_parsing.py:62 | `sorted(seen) in VALID_MESSAGE_SETS`. A complete entry has seen types 1 and 6, and 3 or 4 messages in all. |
| Sorting.Insert | adsb_hub/sbs1_parsing.py:62 | Inserting into a sorted list keeps it sorted and adds exactly that element. |
| Sorting.Sort | adsb_hub/sbs1_parsing.py:62 | `sorted(xs)` is sorted and is a permutation of `xs`. |
| Sorting.SortedUnique | adsb_hub/sbs1_parsing.py:62 | Two sorted lists with the same elements are equal. |
| Sorting.SortEqualsIff | adsb_hub/sbs1_parsing.py:62 | `sorted(s) == t` for a sorted `t` holds exactly when `s` and `t` have the same elements. |
| Sbs1Protocol.Sbs1Int | adsb_hub/sbs1_protocol.py:26-27 | An int is kept. A numeric text (ASCII digits) becomes its `int()` value, which is non-negative. Any other text becomes -1. |
| Sbs1Protocol.Sbs1IntRejects | adsb_hub/sbs1_protocol.py:26-27 | `""` and `"N/A"` give -1. So does `"-640"`, although `int()` would accept it. |
| Sbs1Protocol.Sbs1Boolean | adsb_hub/sbs1_protocol.py:30-31 | The result is 1 exactly when the field is `"-1"`, and 0 exactly when it is not. |
| Sbs1Protocol.BaseEntry | adsb_hub/sbs1_protocol.py:14-23 | A fresh entry has 22 slots. Slot 0 is the message class and slot 4 the identifier. Slots 2, 3 and 5 are -1 and every other slot holds its default. The counter is 0 and no tags have been seen. |
| Sbs1Protocol.FoldFields | adsb_hub/sbs1_protocol.py:48-72 | The fold raises exactly for types 3 and 6 when the altitude is not an integer. It keeps 22 slots and never touches slots 0-9. |
| Sbs1Protocol.FoldFieldsFrame | adsb_hub/sbs1_protocol.py:48-72 | Type 1 writes only slot 10, type 3 only 11, 14, 15 and 18-21, type 4 only 12, 13 and 16, and type 6 only 11, 17 and 18-21. Any other type writes nothing. |
| Sbs1Protocol.FoldFieldsWrites | adsb_hub/sbs1_protocol.py:48-72 | The value written to each slot: the call sign as text, the altitude through `int()`, the flags through `sbs1_boolean`, the vertical rate through `sbs1_int`, the squawk as text, and float fields as their text. |
| Sbs1Protocol.MoreData | adsb_hub/sbs1_protocol.py:43-72 | A bad transmission type raises. The counter goes up by one and the tag is appended exactly when the record's identifier is the entry's own. Otherwise both stay unchanged, but the fields are folded in anyway. The identifier and class never change, and validity is preserved. |
| Sbs1Protocol.TransmissionEntry | adsb_hub/sbs1_protocol.py:34-41 | A new transmission entry is valid. Slot 1 is `"0"`, the counter is 1 and the tag list is the first record's tag. It raises exactly when the transmission type is not an integer, or when a type-3 or type-6 record's altitude is not. |
| Sbs1Protocol.FreshEntryDefaults | adsb_hub/sbs1_protocol.py:14-41 | A new transmission entry keeps the default in every slot its first record does not write, apart from slots 0, 1 and 4. |
| Sbs1Protocol.FoldAll | adsb_hub/sbs1_protocol.py:43-47 | After any sequence of folds, an entry still has 22 slots and is valid. It has counted exactly the records that carry its identifier, and its earlier tags are a prefix of the new list. |
| Sbs1Protocol.OpenWithCallSign | adsb_hub/sbs1_protocol.py:48-50 | A type-1 record opens an entry with tag list `[1]` and holds its call sign. |
| Sbs1Protocol.FoldTagOnly | adsb_hub/sbs1_protocol.py:45-47 | A record of the entry's own aircraft whose type writes no slot only logs its tag. |
| Sbs1Protocol.FoldSurveillance | adsb_hub/sbs1_protocol.py:65-72 | A type-6 record of the entry's own aircraft, with an integer altitude, sets the squawk and altitude, leaves the call sign alone and logs tag 6. |
| Sbs1Protocol.CompleteIff | adsb_hub/sbs1_protocol.py:11-12 | The sorted tag list is one of the valid sets exactly when the tags, as a multiset, are {1, 2, 6} or {1, 3, 4, 6}. |
| Sbs1Protocol.IncompleteWithDuplicateOrWithoutSix | adsb_hub/sbs1_parsing.py:61-62 | Tags with a duplicate, or without tag 6, are never a valid set. |
| Sbs1Parsing.FieldLayout | adsb_hub/sbs1_parsing.py:14-39 | `NUM_FIELDS` is 22, the number of entry slots. The slots the fold uses carry the expected column names. |
| Sbs1Parsing.InitGood | adsb_hub/sbs1_parsing.py:46-51 | The parser starts with an empty table in a state that satisfies the invariant. |
| Sbs1Parsing.Emitted | adsb_hub/sbs1_parsing.py:61-66 | Closing an entry adds one row exactly when the entry exists and its tags are a valid set. That row is the entry's slots. |
| Sbs1Parsing.IncompleteEntryNotEmitted | adsb_hub/sbs1_parsing.py:61-62 | An entry with a duplicate tag, or without tag 6, adds no row. |
| Sbs1Parsing.StartEntry | adsb_hub/sbs1_parsing.py:59-68 | On a new identifier the outgoing entry's row, if any, is appended first. Then the record opens a fresh entry, and a raise there keeps the appended row. |
| Sbs1Parsing.Process | adsb_hub/sbs1_parsing.py:54-73 | Each call adds at most one row and never changes earlier rows. A call that returns has set the last identifier to the record's and keeps the invariant. |
| Sbs1Parsing.ProcessOtherClass | adsb_hub/sbs1_parsing.py:55-56 | A non-"MSG" record changes only the last identifier seen. |
| Sbs1Parsing.ProcessNewIdentifier | adsb_hub/sbs1_parsing.py:59-68 | An "MSG" record with a new identifier appends the outgoing row if it is complete. The record then always opens the new current entry. |
| Sbs1Parsing.ProcessSameIdentifier | adsb_hub/sbs1_parsing.py:69-71 | An "MSG" record with the same identifier leaves the table alone and is folded into the current entry. With no current entry it raises. |
| Sbs1Parsing.ProcessAppendsIff | adsb_hub/sbs1_parsing.py:59-66 | A row is appended exactly when an "MSG" record with a new identifier closes an existing entry whose tags are a valid set. That row is the entry's slots. |
| Sbs1Parsing.ProcessCrashesWithoutEntry | adsb_hub/sbs1_parsing.py:56-73 | While no entry is open, as at the start of a session, a 22-field record that is not "MSG" (an "AIR" or "ID" record, say) and then a 22-field "MSG" record for the same aircraft make `process` raise. The table stays as it was. |
| Sbs1Parsing.ProcessFixed | adsb_hub/sbs1_parsing.py:54-73 | The repaired step raises only on invalid integers. Every "MSG" record leaves an open entry, and the table guarantees of `Process` still hold. |
| Sbs1Parsing.ProcessFixedAgrees | adsb_hub/sbs1_parsing.py:54-73 | The repaired step equals `Process` wherever `Process` does not raise for want of an entry. |
| Sbs1Parsing.ProcessFixedOpensEntry | adsb_hub/sbs1_parsing.py:59-68 | With the repair, and while no entry is open, the same pair of 22-field records opens an entry for the announced aircraft. |
| Sbs1Parsing.ForeignRecordFoldedIntoCurrentEntry | adsb_hub/sbs1_protocol.py:45-50 | Suppose a type-1 "MSG" record carries the last identifier seen, but the open entry belongs to another aircraft. Then the record overwrites that entry's call sign and leaves the table alone. It is not counted or logged, and the entry keeps its identifier. |
| Sbs1Parsing.Run | adsb_hub/main.py:53-55 | The record loop with the repaired step `ProcessFixed`, not `process` as written. It only appends rows, at most one per record. It keeps the invariant and ends with the last record's identifier. |
| Sbs1Parsing.RunAsWritten | adsb_hub/main.py:53-55 | The record loop with `process` as written. It only appends rows, at most one per record, and keeps the invariant. |
| Sbs1Parsing.RunAsWrittenAgrees | adsb_hub/main.py:53-55 | The loop as written gives the same result as the repaired loop, unless it raises because no entry exists. |
| Sbs1Parsing.RunAsWrittenWithEntry | adsb_hub/sbs1_parsing.py:54-73 | Once an entry is open, the loop as written gives exactly the repaired loop's result. The entry is never reset, so the missing-entry raise cannot happen again. |
| Sbs1Parsing.RunAsWrittenOpening | adsb_hub/sbs1_parsing.py:59-68 | A stream that opens with an "MSG" record for an identifier other than the last one seen runs as written exactly as the repaired loop runs it. |
| Sbs1Parsing.RunAsWrittenAppend | adsb_hub/main.py:53-55 | Running two record sequences one after the other as written is running their concatenation. |
| Sbs1Parsing.AnnouncedAircraftStream | adsb_hub/sbs1_parsing.py:56-73 | While no entry is open, the same pair of 22-field records over a whole stream stops the loop as written. The repaired loop goes on with that aircraft's entry open. |
| Sbs1Parsing.SessionStartCrash | adsb_hub/sbs1_parsing.py:46-73 | A session starts with no entry open. So that pair, as the first two records of a session, stops the loop as written with an empty table. |
| Sbs1Parsing.RunAppend | adsb_hub/main.py:53-55 | Running two record sequences one after the other is running their concatenation. |
| Sbs1Parsing.OtherClassesLeaveMergeAlone | adsb_hub/sbs1_parsing.py:55-56 | Any number of non-"MSG" records leave the current entry and the table unchanged. |
| Sbs1Tracks.RunFoldsTrack | adsb_hub/sbs1_parsing.py:69-71 | Suppose an entry is open and every record is an "MSG" record carrying the last identifier seen. Then the run folds each record into that entry and appends nothing. The loop as written runs the same way. |
| Sbs1Tracks.TrackThenChange | adsb_hub/sbs1_parsing.py:59-71 | Suppose every record is "MSG", the track opens on an identifier other than the last one seen, no record of the track raises, and the closing record carries another identifier. Then the table gains the track's row if it is complete, besides what closing the previous entry adds, and nothing else. The loop as written gives the same result. |
| Sbs1Tracks.CompleteTrackEmitted | adsb_hub/sbs1_parsing.py:59-71 | Types 1, 2 and 6 for one aircraft, with an integer type-6 altitude, then an "MSG" record of another aircraft, add exactly one row. All four records are "MSG", and the first carries an identifier other than the last one seen. The row holds the type-1 call sign and the type-6 squawk and altitude. The same holds for the loop as written. |
| Sbs1Tracks.IncompleteTrackDropped | adsb_hub/sbs1_parsing.py:59-71 | Under the same conditions, types 1 and 6 alone add no row for that aircraft, in the repaired loop and in the loop as written. |
| Sbs1Tracks.EntryOneTwoSix | adsb_hub/sbs1_protocol.py:43-72 | Folding types 1, 2 and 6 gives tags `[1, 2, 6]` with the call sign, squawk and altitude in place. |
| Ingest.FieldsOf | adsb_hub/main.py:50 | The list comprehension: one field list per line, each being `line.split(',')`. |
| Ingest.Pieces | adsb_hub/main.py:50-52 | There is one candidate per CRLF-separated line of the read. Candidate 0 is the leftover list followed by the fields of line 0, and candidate k > 0 is the fields of line k. |
| Ingest.PiecesOfLeftover | adsb_hub/main.py:52 | For every read, the leftover changes only the first candidate, by going in front of it. |
| Ingest.ReadLosesNothing | adsb_hub/main.py:50 | Splitting loses nothing: the candidates of a read with no leftover, written back with commas and CRLFs, give the read. |
| Ingest.BareCarriageReturnStaysInLine | adsb_hub/main.py:50 | A bare CR does not end a line. `"a\r\r\nb".split("\r\n")` is `["a\r", "b"]`. |
| Ingest.FirstCandidate | adsb_hub/main.py:52 | For every read, the first candidate is the leftover list followed by the fields of the text before the first CRLF. That text holds no CRLF, is followed by one when the read has more lines, and is the whole read otherwise. |
| Ingest.ReadOfWrittenRecords | adsb_hub/main.py:50-55 | A read of whole comma- and CRLF-written records, with no leftover, gives those records back. All are forwarded when each has 22 fields. |
| Ingest.Forwarded | adsb_hub/main.py:53-54 | Only candidates of exactly 22 fields are forwarded. |
| Ingest.ForwardedMembers | adsb_hub/main.py:53-54 | A candidate is forwarded exactly when it has 22 fields. |
| Ingest.ForwardedAppend | adsb_hub/main.py:53-55 | Forwarding preserves order: it distributes over concatenation. |
| Ingest.NewLeftover | adsb_hub/main.py:53-57 | If every candidate has 22 fields, the leftover is unchanged. Otherwise it is the last candidate that does not have 22 fields. |
| Ingest.CutRecordLost | adsb_hub/main.py:52 | Suppose a line without CR is cut by the read boundary before its last field, so the first part has fewer than 22 fields. That part becomes the leftover, and the first candidate of the next read has 23 fields, so the line is never forwarded. |
| Ingest.CutRecordRecovered | adsb_hub/main.py:52 | For the same cut before the last field, the repaired reading, with the leftover text rejoined, forwards the cut line as one 22-field record. |
| Ingest.BoundaryReadDropsNext | adsb_hub/main.py:50-57 | A read that ends in CRLF leaves `[""]` as the leftover, and then the next read's first record has 23 fields. |
| Ingest.BoundaryReadKeepsNext | adsb_hub/main.py:50-57 | With the repair, the next read's first record is forwarded. |
| Ingest.ReassembledPieces | adsb_hub/main.py:50-52 | The repaired reading: the leftover is rejoined with commas in front of the read's text before splitting. It gives at least one candidate, and the candidates written back with commas and CRLFs are the leftover's text followed by the read. |
| Ingest.ReassembledWithoutLeftover | adsb_hub/main.py:50-52 | With no leftover, the repaired reading is the reading as written. |
| Ingest.Feed | adsb_hub/main.py:53-57 | The loop over a read's candidates, one at a time, with `process` as written or with the repaired step. It keeps the invariant. |
| Ingest.FeedIsRun | adsb_hub/main.py:53-57 | In either variant, passing over the candidates one at a time is the same as running that variant's merge loop (`RunAsWritten` or `Run`) on the forwarded ones. |
| Ingest.FeedPieces | adsb_hub/main.py:53-57 | The imperative loop computes the same result as `Feed`, in either variant. If it does not raise, it carries the leftover that `NewLeftover` describes. |
| Ingest.FeedChunk | adsb_hub/main.py:50-57 | One decoded read. As written, it is `RunAsWritten` over the forwarded `Pieces`. Repaired, it is `Run` over the forwarded `ReassembledPieces`. Either way, the new leftover is the one `NewLeftover` describes. |

## Behaviour of the code

- `int(data[1])` and `int(data[11])` raise `ValueError` on non-numeric text (adsb_hub/sbs1_protocol.py:44, 53, 67). In `Sbs1Protocol.MoreData` that is `Err(InvalidInt(..))`. Nothing in the ingest loop catches it, so the loop stops there. Only `sbs1_int` maps such text to -1.
- `more_data` counts and logs a record only when it carries the entry's own identifier (adsb_hub/sbs1_protocol.py:45-47). It folds the fields of every record it is given (adsb_hub/sbs1_protocol.py:48-72). See `Sbs1Parsing.ForeignRecordFoldedIntoCurrentEntry`.
- `last_seen_icao` is set by records of every class (adsb_hub/sbs1_parsing.py:73). The comments at adsb_hub/sbs1_parsing.py:57-58 say that only a new ICAO closes an entry and that the current ICAO's messages are merged. With no current entry, the merge raises (Findings, first row). A line reaches `process` only when it has 22 fields (adsb_hub/main.py:54), so this needs a non-"MSG" record of that length.
- The four flags are stored as the ints 1 and 0 (adsb_hub/sbs1_protocol.py:30-31).
- A candidate without 22 fields becomes the leftover, and only the last such candidate of a read is kept (adsb_hub/main.py:53-57, `Ingest.NewLeftover`). The comment at adsb_hub/main.py:51 says the leftover is to be joined with the incomplete first entry. The list concatenation at line 52 does not do that for a line cut inside a field (Findings, second and third rows).
- An entry is judged and appended only when an "MSG" record with another identifier arrives (adsb_hub/sbs1_parsing.py:59-66). So the last aircraft's entry of a stream is never appended: `Sbs1Parsing.Emitted` applies only on an identifier change.

## Left out

- Socket connect and receive, UTF-8 decoding and the byte counter (adsb_hub/main.py:42-48): these are network I/O. A read is an already decoded string.
- The threads: the parser lock, `WriteSBS1`, `save_data` and `RepeatedTimer` (adsb_hub/sbs1_parsing.py:79-111, adsb_hub/main.py:21-29, 37-40, 59-61). They exist for concurrency, and the data goes to HDF5 through pandas. A `Crash` keeps the table, because a save that is still running would write it.
- `print_memory_usage` (adsb_hub/sbs1_parsing.py:75-77) relies on pandas memory estimates and the file system.
- Sbs1Protocol.FoldFields, Sbs1Protocol.TransmissionEntry: `float()` is not modelled, and a float slot holds the record's text. So the `ValueError` that `float()` raises on bad text is left out, and an entry with such text still builds. The fold raises "exactly" for bad type-3 and type-6 altitudes only under this abstraction.
- The pandas `DataFrame`, `DATA_SPECS` dtypes and the coercion at save time are not modelled. The table is a sequence of 22-slot rows, and column names are kept only as `Fields`.
- adsb_hub/munge.py, virtual_radar_server/vrs_parsing.py, utils.py and adsb_parse.py are outside the merge core. They are HTTP polling, pandas clean-up, file names and a command-line entry point.
- Strings.ParseInt: Python's `int()` also strips surrounding whitespace and accepts `_` between digits and non-ASCII digits. The model accepts only an optional sign followed by ASCII digits.
- Strings.IsNumeric, Sbs1Protocol.Sbs1Int: Python's `isnumeric()` also accepts non-ASCII numeric characters such as "½" or "²", and the model accepts ASCII digits only. `int()` raises `ValueError` on such text, so `sbs1_int` raises at adsb_hub/sbs1_protocol.py:27. That raise is not modelled, and the model returns -1 for such text.
- `EXPECTED_NUM_MSGS` and the `transmission_type` attribute (adsb_hub/sbs1_protocol.py:10, 37) are never read. The attribute is always `""`, because it is copied from the defaults before slot 1 is set.
- The second copies of `SBS1Entry` and `TransmissionMsgEntry` (adsb_hub/sbs1_parsing.py:114-178) are the classes that `process` actually uses. They match adsb_hub/sbs1_protocol.py:8-72 line for line, so the same members model both.
- Ingest.FeedChunk: after a raise, the leftover it returns is unspecified. In Python the exception ends the ingest loop, so that leftover is never used.
- Chunk-boundary invariance is not claimed, even for the repaired reading. The leftover is still the last candidate that does not have 22 fields, not only the text after the last CRLF.

## Findings

| source | as written | input that shows it | evidently intended | confidence | as-written member | corrected member |
|---|---|---|---|---|---|---|
| adsb_hub/sbs1_parsing.py:56-73 | `last_seen_icao` is also updated by non-"MSG" records. An "MSG" record with that identifier then goes to `current_entry.more_data`, even when `current_entry` is `None`. | As the first records of a session, while no entry is open: a 22-field record whose first field is not "MSG" (an "AIR" or "ID" record, say), then a 22-field "MSG" record for the same aircraft. `process` raises `AttributeError` and the ingest loop stops. Only 22-field lines reach `process` (adsb_hub/main.py:54). Whether a live feed sends non-"MSG" lines of that length is not established. | The record should open an entry for the aircraft, as a new identifier does. | not executed | Sbs1Parsing.ProcessCrashesWithoutEntry | Sbs1Parsing.ProcessFixedOpensEntry |
| adsb_hub/main.py:52 | The leftover field list is list-concatenated with the fields of the next read's first line. When a read boundary cuts a line, the cut field is counted in both halves. | A read that ends with `MSG,3,…,37` (fewer than 22 fields), then a read starting with `000,…\r\n` that completes the line to 22 fields. The first candidate has 23 fields, so the record is dropped. | The leftover text should be rejoined with the new text before splitting, so that the cut line is split once. | not executed | Ingest.CutRecordLost | Ingest.CutRecordRecovered |
| adsb_hub/main.py:50-57 | A read that ends exactly at CRLF has the empty last candidate `[""]`, which becomes the leftover. | A read `<22-field line>\r\n`, then a read starting with another 22-field line. That line's candidate is `[""]` plus 22 fields, which is 23 fields, so it is dropped. | The empty leftover should add nothing to the next line. | not executed | Ingest.BoundaryReadDropsNext | Ingest.BoundaryReadKeepsNext |

Both readings are modelled side by side. `Sbs1Parsing.RunAsWritten` steps with
`Sbs1Parsing.Process`, and `Ingest.FeedChunk(AsWritten, ..)` reads with `Ingest.Pieces`.
`Sbs1Parsing.Run` steps with `Sbs1Parsing.ProcessFixed`, and `Ingest.FeedChunk(Repaired, ..)`
reads with `Ingest.ReassembledPieces`. The track lemmas in `Sbs1Tracks` hold for both. A track opens with an "MSG" record
for a new identifier, and from then on `Sbs1Parsing.RunAsWrittenOpening` and
`Sbs1Parsing.RunAsWrittenWithEntry` make the two loops agree.

=== FILE: ingest.dfy ===
/** The ingest loop of adsb_hub/main.py: each read from the SBS-1 socket is cut into lines
    at CRLF and each line into fields at commas, the fields left over from the previous
    read are put in front of the first line, every line with exactly 22 fields is handed
    to the merge engine and any other line becomes the new leftover. */
module Ingest {
  import opened Results
  import opened Strings
  import opened Sbs1Protocol
  import opened Sbs1Parsing

  /** The line separator of the SBS-1 stream. */
  const Crlf: string := "\r\n"

  /** The field separator of an SBS-1 line. */
  const Comma: string := ","

  /** The fields of each line. */
  function FieldsOf(lines: seq<string>): (ps: seq<seq<string>>)
    ensures |ps| == |lines|
    ensures forall k :: 0 <= k < |lines| ==> ps[k] == Split(lines[k], Comma)
  {
    if |lines| == 0 then [] else [Split(lines[0], Comma)] + FieldsOf(lines[1..])
  }

  /** The candidate records of one read, as the code builds them: the leftover fields are
      concatenated, as a list, with the fields of the read's first line. */
  function Pieces(leftover: seq<string>, text: string): (ps: seq<seq<string>>)
    ensures |ps| == |Split(text, Crlf)| && |ps| > 0
    ensures ps[0] == leftover + Split(Split(text, Crlf)[0], Comma)
    ensures forall k :: 0 < k < |ps| ==> ps[k] == Split(Split(text, Crlf)[k], Comma)
  {
    var fields := FieldsOf(Split(text, Crlf));
    fields[0 := leftover + fields[0]]
  }

  /** The leftover only ever changes the first candidate of a read, by going in front of
      it. */
  lemma PiecesOfLeftover(leftover: seq<string>, text: string)
    ensures Pieces(leftover, text)[0] == leftover + Pieces([], text)[0]
    ensures Pieces(leftover, text)[1..] == Pieces([], text)[1..]
  {
    var a, b := Pieces(leftover, text), Pieces([], text);
    assert [] + Split(Split(text, Crlf)[0], Comma) == Split(Split(text, Crlf)[0], Comma);
    assert forall k :: 0 <= k < |a| - 1 ==> a[1..][k] == a[k + 1] && b[1..][k] == b[k + 1];
  }

  /** Cutting a read into candidates loses nothing: writing the candidates back out with
      commas and CRLFs gives the read. */
  lemma ReadLosesNothing(text: string)
    ensures Join(Lines(Pieces([], text)), Crlf) == text
  {
    var lines := Split(text, Crlf);
    var ps := Pieces([], text);
    assert [] + Split(lines[0], Comma) == Split(lines[0], Comma);
    assert forall k :: 0 <= k < |ps| ==> ps[k] == Split(lines[k], Comma);
    assert Lines(ps) == lines;
  }

  /** The leftover fields as the text they were cut from. */
  function Rejoin(leftover: seq<string>): string {
    if leftover == [] then "" else Join(leftover, Comma)
  }

  /** Rejoining the fields of a text gives the text back. */
  lemma RejoinSplit(a: string)
    ensures Rejoin(Split(a, Comma)) == a
  {
  }

  /** The candidate records of one read with the leftover repaired: its text is put back
      in front of the read's text before anything is split, so a line cut by the read
      boundary is split as one line. */
  function ReassembledPieces(leftover: seq<string>, text: string): (ps: seq<seq<string>>)
    ensures |ps| > 0 && forall k :: 0 <= k < |ps| ==> |ps[k]| > 0
    ensures Join(Lines(ps), Crlf) == Rejoin(leftover) + text
  {
    ReadLosesNothing(Rejoin(leftover) + text);
    Pieces([], Rejoin(leftover) + text)
  }

  /** The candidates handed to `process`: those with exactly 22 fields, in order. */
  function Forwarded(ps: seq<seq<string>>): (recs: seq<seq<string>>)
    ensures |recs| <= |ps|
    ensures forall k :: 0 <= k < |recs| ==> |recs[k]| == NumFields
  {
    if |ps| == 0 then []
    else if |ps[0]| == NumFields then [ps[0]] + Forwarded(ps[1..])
    else Forwarded(ps[1..])
  }

  /** A candidate is forwarded exactly when it has 22 fields. */
  lemma {:induction false} ForwardedMembers(ps: seq<seq<string>>)
    ensures forall x :: x in Forwarded(ps) <==> x in ps && |x| == NumFields
    decreases |ps|
  {
    if |ps| > 0 {
      var tail := Forwarded(ps[1..]);
      ForwardedMembers(ps[1..]);
      forall x
        ensures x in Forwarded(ps) <==> x in ps && |x| == NumFields
      {
        assert x in ps <==> x == ps[0] || x in ps[1..];
        if |ps[0]| == NumFields {
          assert Forwarded(ps) == [ps[0]] + tail;
        } else {
          assert Forwarded(ps) == tail;
        }
      }
    }
  }

  /** The leftover after a read: the last candidate that does not have 22 fields, or the
      previous leftover when every candidate has 22. */
  function NewLeftover(ps: seq<seq<string>>, previous: seq<string>): (r: seq<string>)
    ensures (forall k :: 0 <= k < |ps| ==> |ps[k]| == NumFields) ==> r == previous
    ensures (exists k :: 0 <= k < |ps| && |ps[k]| != NumFields) ==>
      exists i :: 0 <= i < |ps| && r == ps[i] && |ps[i]| != NumFields &&
        forall j :: i < j < |ps| ==> |ps[j]| == NumFields
    ensures |previous| != NumFields ==> |r| != NumFields
  {
    if |ps| == 0 then previous
    else if |ps[|ps| - 1]| != NumFields then ps[|ps| - 1]
    else NewLeftover(ps[..|ps| - 1], previous)
  }

  /** Filtering distributes over concatenation. */
  lemma {:induction false} ForwardedAppend(a: seq<seq<string>>, b: seq<seq<string>>)
    ensures Forwarded(a + b) == Forwarded(a) + Forwarded(b)
    decreases |a|
  {
    if |a| == 0 {
      assert a + b == b;
    } else {
      assert (a + b)[0] == a[0];
      assert (a + b)[1..] == a[1..] + b;
      ForwardedAppend(a[1..], b);
    }
  }

  /** Every candidate of 22 fields is forwarded: a text made only of whole records is
      forwarded in full. */
  lemma {:induction false} ForwardedAllComplete(ps: seq<seq<string>>)
    requires forall k :: 0 <= k < |ps| ==> |ps[k]| == NumFields
    ensures Forwarded(ps) == ps
    decreases |ps|
  {
    if |ps| > 0 {
      ForwardedAllComplete(ps[1..]);
      assert [ps[0]] + ps[1..] == ps;
    }
  }

  /** The lines an SBS-1 server writes for `recs`: fields joined by commas. */
  function Lines(recs: seq<seq<string>>): (lines: seq<string>)
    requires forall k :: 0 <= k < |recs| ==> |recs[k]| > 0
    ensures |lines| == |recs|
    ensures forall k :: 0 <= k < |recs| ==> lines[k] == Join(recs[k], Comma)
  {
    if |recs| == 0 then [] else [Join(recs[0], Comma)] + Lines(recs[1..])
  }

  /** Fields without commas or carriage returns, as the SBS-1 format has them. */
  predicate Plain(rec: seq<string>) {
    forall k :: 0 <= k < |rec| ==> ',' !in rec[k] && '\r' !in rec[k]
  }

  /** A read holding whole records written out with commas and CRLFs, read with no
      leftover, gives those records back as its candidates, and all are forwarded when
      each has 22 fields. */
  lemma ReadOfWrittenRecords(recs: seq<seq<string>>)
    requires |recs| > 0
    requires forall k :: 0 <= k < |recs| ==> |recs[k]| > 0 && Plain(recs[k])
    ensures Pieces([], Join(Lines(recs), Crlf)) == recs
    ensures (forall k :: 0 <= k < |recs| ==> |recs[k]| == NumFields) ==>
      Forwarded(Pieces([], Join(Lines(recs), Crlf))) == recs
  {
    var lines := Lines(recs);
    WrittenLines(recs);
    SplitJoin(lines, Crlf);
    var fields := FieldsOf(lines);
    assert fields == recs;
    assert [] + fields[0] == fields[0];
    if forall k :: 0 <= k < |recs| ==> |recs[k]| == NumFields {
      ForwardedAllComplete(recs);
    }
  }

  /** A written line holds no carriage return and splits back into its record. */
  lemma WrittenLines(recs: seq<seq<string>>)
    requires forall k :: 0 <= k < |recs| ==> |recs[k]| > 0 && Plain(recs[k])
    ensures forall k :: 0 <= k < |recs| ==> '\r' !in Lines(recs)[k] && Split(Lines(recs)[k], Comma) == recs[k]
  {
    forall k | 0 <= k < |recs|
      ensures '\r' !in Lines(recs)[k] && Split(Lines(recs)[k], Comma) == recs[k]
    {
      JoinFree(recs[k], Comma, '\r');
      SplitJoin(recs[k], Comma);
    }
  }

  /** With no leftover the repaired reading is the reading as written. */
  lemma ReassembledWithoutLeftover(text: string)
    ensures ReassembledPieces([], text) == Pieces([], text)
  {
    assert Rejoin([]) + text == text;
  }

  // ---- the leftover as written and as repaired ------------------------------------------

  /** A read without CRLF is one candidate: the leftover followed by its fields. */
  lemma ReadOfOneLine(leftover: seq<string>, line: string)
    requires '\r' !in line
    ensures Pieces(leftover, line) == [leftover + Split(line, Comma)]
  {
    FreeSplitsToItself(line, Crlf);
    assert FieldsOf([line])[0] == Split(line, Comma);
  }

  /** The first candidate of any read is the leftover followed by the fields of the text
      before the first CRLF: a prefix of the read that holds no CRLF, and is the whole read
      when there is none. */
  lemma FirstCandidate(leftover: seq<string>, text: string)
    ensures var first := Split(text, Crlf)[0];
      && Pieces(leftover, text)[0] == leftover + Split(first, Comma)
      && !Contains(first, Crlf)
      && (|Split(text, Crlf)| == 1 ==> first == text)
      && (|Split(text, Crlf)| > 1 ==> first + Crlf <= text)
  {
    var lines := Split(text, Crlf);
    if |lines| > 1 {
      assert Join(lines, Crlf) == lines[0] + Crlf + Join(lines[1..], Crlf);
    }
  }

  /** A bare carriage return does not end a line: only CRLF does. */
  lemma BareCarriageReturnStaysInLine()
    ensures Split("a\r\r\nb", Crlf) == ["a\r", "b"]
  {
    assert "a\r" + Crlf[..1] == "a\r\r";
    assert !Contains("\r", Crlf);
    assert "\r\r"[..2][1] != Crlf[1] && "\r\r"[1..] == "\r";
    assert !Contains("\r\r", Crlf);
    assert "a\r\r"[..2][0] != Crlf[0] && "a\r\r"[1..] == "\r\r";
    assert !Contains("a\r\r", Crlf);
    assert "a\r" + Crlf + "b" == "a\r\r\nb";
    SplitAfterFreePrefix("a\r", Crlf, "b");
    FreeSplitsToItself("b", Crlf);
  }

  /** For a first line without a carriage return, the first candidate is the leftover
      followed by that line's fields. */
  lemma FirstLineCandidate(leftover: seq<string>, line: string, rest: string)
    requires '\r' !in line
    ensures Pieces(leftover, line + Crlf + rest)[0] == leftover + Split(line, Comma)
  {
    FreeBeforeSeparator(line, Crlf);
    SplitAfterFreePrefix(line, Crlf, rest);
    assert Split(line + Crlf + rest, Crlf)[0] == line;
  }

  /** A read that ends with CRLF has the single empty field as its last candidate. */
  lemma ReadEndingInCrlf(line: string)
    requires '\r' !in line
    ensures Pieces([], line + Crlf) == [Split(line, Comma), [""]]
  {
    FreeBeforeSeparator(line, Crlf);
    SplitAfterFreePrefix(line, Crlf, "");
    assert line + Crlf + "" == line + Crlf;
    FreeSplitsToItself("", Crlf);
    FreeSplitsToItself("", Comma);
    var lines := Split(line + Crlf, Crlf);
    assert lines == [line, ""];
    var fields := FieldsOf(lines);
    assert |fields| == 2 && fields[0] == Split(line, Comma) && fields[1] == [""];
    assert fields == [Split(line, Comma), [""]];
    assert [] + fields[0] == fields[0];
  }

  /** A first candidate of 22 fields is the first record forwarded. */
  lemma ForwardedHead(ps: seq<seq<string>>)
    requires |ps| > 0 && |ps[0]| == NumFields
    ensures |Forwarded(ps)| > 0 && Forwarded(ps)[0] == ps[0]
  {
  }

  /** The fields of `a + b` number one fewer than those of `a` and of `b` together. */
  lemma FieldsOfConcatenation(a: string, b: string)
    ensures |Split(a + b, Comma)| + 1 == |Split(a, Comma)| + |Split(b, Comma)|
  {
    SplitCount(a, ',');
    SplitCount(b, ',');
    SplitCount(a + b, ',');
    assert multiset(a + b) == multiset(a) + multiset(b);
  }

  /** A line cut by the read boundary is lost as written. The first read ends in the
      middle of the line, after `a`; having fewer than 22 fields it is nothing but the
      leftover. The second read starts with the rest of the line, `b`. Although `a + b`
      has 22 fields, the first candidate of the second read has 23, because the field the
      boundary cut counts once in each half, so it is not forwarded. */
  lemma CutRecordLost(a: string, b: string, rest: string)
    requires '\r' !in a && '\r' !in b
    requires |Split(a + b, Comma)| == NumFields && |Split(a, Comma)| < NumFields
    ensures Forwarded(Pieces([], a)) == [] && NewLeftover(Pieces([], a), []) == Split(a, Comma)
    ensures |Pieces(Split(a, Comma), b + Crlf + rest)[0]| == NumFields + 1
  {
    ReadOfOneLine([], a);
    assert [] + Split(a, Comma) == Split(a, Comma);
    FirstLineCandidate(Split(a, Comma), b, rest);
    FieldsOfConcatenation(a, b);
  }

  /** Repaired, the same two reads forward the cut line as one record of 22 fields. */
  lemma CutRecordRecovered(a: string, b: string, rest: string)
    requires '\r' !in a && '\r' !in b
    requires |Split(a + b, Comma)| == NumFields && |Split(a, Comma)| < NumFields
    ensures Forwarded(ReassembledPieces([], a)) == [] && NewLeftover(ReassembledPieces([], a), []) == Split(a, Comma)
    ensures ReassembledPieces(Split(a, Comma), b + Crlf + rest)[0] == Split(a + b, Comma)
    ensures Forwarded(ReassembledPieces(Split(a, Comma), b + Crlf + rest))[0] == Split(a + b, Comma)
  {
    ReassembledWithoutLeftover(a);
    ReadOfOneLine([], a);
    assert [] + Split(a, Comma) == Split(a, Comma);
    RejoinedFirstCandidate(a, b, rest);
    ForwardedHead(ReassembledPieces(Split(a, Comma), b + Crlf + rest));
  }

  /** With the repair, the leftover fields of `a` and a read starting with `b` give the
      fields of `a + b` as the first candidate. */
  lemma RejoinedFirstCandidate(a: string, b: string, rest: string)
    requires '\r' !in a && '\r' !in b
    ensures ReassembledPieces(Split(a, Comma), b + Crlf + rest)[0] == Split(a + b, Comma)
  {
    RejoinSplit(a);
    var text := a + (b + Crlf + rest);
    assert text == (a + b) + Crlf + rest;
    assert ReassembledPieces(Split(a, Comma), b + Crlf + rest) == Pieces([], text);
    assert '\r' !in a + b;
    FirstLineCandidate([], a + b, rest);
    assert [] + Split(a + b, Comma) == Split(a + b, Comma);
  }

  /** A read that ends exactly at a line boundary is also harmful as written: its last
      candidate is the single empty field after the final CRLF, which becomes the
      leftover, and the next read's first record then has 23 fields and is lost. */
  lemma BoundaryReadDropsNext(line: string, next: string, rest: string)
    requires '\r' !in line && '\r' !in next
    requires |Split(line, Comma)| == NumFields && |Split(next, Comma)| == NumFields
    ensures Forwarded(Pieces([], line + Crlf)) == [Split(line, Comma)]
    ensures NewLeftover(Pieces([], line + Crlf), []) == [""]
    ensures |Pieces([""], next + Crlf + rest)[0]| == NumFields + 1
  {
    ReadEndingInCrlf(line);
    FirstLineCandidate([""], next, rest);
  }

  /** Repaired, the empty leftover adds nothing and the next read's first record is
      forwarded. */
  lemma BoundaryReadKeepsNext(line: string, next: string, rest: string)
    requires '\r' !in line && '\r' !in next
    requires |Split(line, Comma)| == NumFields && |Split(next, Comma)| == NumFields
    ensures NewLeftover(ReassembledPieces([], line + Crlf), []) == [""]
    ensures ReassembledPieces([""], next + Crlf + rest)[0] == Split(next, Comma)
    ensures Forwarded(ReassembledPieces([""], next + Crlf + rest))[0] == Split(next, Comma)
  {
    ReassembledWithoutLeftover(line + Crlf);
    ReadEndingInCrlf(line);
    assert Rejoin([""]) == "";
    assert "" + (next + Crlf + rest) == next + Crlf + rest;
    FirstLineCandidate([], next, rest);
    assert [] + Split(next, Comma) == Split(next, Comma);
    ForwardedHead(ReassembledPieces([""], next + Crlf + rest));
  }

  // ---- one read through the merge engine ---------------------------------------------------

  /** Which ingest loop is meant: the code as written, or the one with both repairs (the
      leftover rejoined before splitting, and an entry opened when none exists). */
  datatype Variant = AsWritten | Repaired

  /** The candidates of one read. */
  function Read(v: Variant, leftover: seq<string>, text: string): (ps: seq<seq<string>>)
    ensures |ps| > 0
  {
    if v.Repaired? then ReassembledPieces(leftover, text) else Pieces(leftover, text)
  }

  /** One call of `process`. */
  function Step(v: Variant, p: Parser, rec: seq<string>): (r: Result<Parser, Crash>)
    requires Good(p) && |rec| == NumFields
    ensures r.Ok? ==> Good(r.value) && r.value.lastSeen == Some(rec[HexIdentSlot])
  {
    if v.Repaired? then ProcessFixed(p, rec) else Process(p, rec)
  }

  /** The merge engine over a sequence of records. */
  function RunIn(v: Variant, p: Parser, recs: seq<seq<string>>): (r: Result<Parser, Crash>)
    requires Good(p)
    requires forall k :: 0 <= k < |recs| ==> |recs[k]| == NumFields
    ensures r.Ok? ==> Good(r.value)
  {
    if v.Repaired? then Run(p, recs) else RunAsWritten(p, recs)
  }

  /** One more candidate: it becomes the leftover unless it has 22 fields. */
  lemma LeftoverStep(ps: seq<seq<string>>, i: nat, previous: seq<string>)
    requires i < |ps|
    ensures NewLeftover(ps[..i + 1], previous) == if |ps[i]| == NumFields then NewLeftover(ps[..i], previous) else ps[i]
  {
    assert ps[..i + 1][..i] == ps[..i];
  }

  /** One more candidate: the records forwarded grow by it exactly when it has 22
      fields. */
  lemma ForwardedStep(ps: seq<seq<string>>, i: nat)
    requires i < |ps|
    ensures Forwarded(ps[..i + 1]) == Forwarded(ps[..i]) + if |ps[i]| == NumFields then [ps[i]] else []
  {
    assert ps[..i + 1] == ps[..i] + [ps[i]];
    ForwardedAppend(ps[..i], [ps[i]]);
    assert Forwarded([ps[i]]) == if |ps[i]| == NumFields then [ps[i]] else [];
  }

  /** One more candidate: it is run when it has 22 fields. */
  lemma FeedStep(v: Variant, p: Parser, ps: seq<seq<string>>, i: nat)
    requires Good(p) && i < |ps| && RunIn(v, p, Forwarded(ps[..i])).Ok?
    ensures |ps[i]| == NumFields ==>
      RunIn(v, p, Forwarded(ps[..i + 1])) == Step(v, RunIn(v, p, Forwarded(ps[..i])).value, ps[i])
    ensures |ps[i]| != NumFields ==> RunIn(v, p, Forwarded(ps[..i + 1])) == RunIn(v, p, Forwarded(ps[..i]))
  {
    ForwardedStep(ps, i);
    var done := Forwarded(ps[..i]);
    if |ps[i]| == NumFields {
      RunThenOne(v, p, done, ps[i]);
    } else {
      assert done + [] == done;
    }
  }

  /** Running one more record continues from where the run stopped. */
  lemma RunThenOne(v: Variant, p: Parser, recs: seq<seq<string>>, rec: seq<string>)
    requires Good(p) && |rec| == NumFields
    requires forall k :: 0 <= k < |recs| ==> |recs[k]| == NumFields
    requires RunIn(v, p, recs).Ok?
    ensures RunIn(v, p, recs + [rec]) == Step(v, RunIn(v, p, recs).value, rec)
  {
    if v.Repaired? {
      RunAppend(p, recs, [rec]);
      RunSingle(Run(p, recs).value, rec);
    } else {
      RunAsWrittenAppend(p, recs, [rec]);
      RunAsWrittenSingle(RunAsWritten(p, recs).value, rec);
    }
  }

  /** Once a prefix of the candidates raises, the whole read raises the same way. */
  lemma FeedStops(v: Variant, p: Parser, ps: seq<seq<string>>, i: nat)
    requires Good(p) && i <= |ps| && RunIn(v, p, Forwarded(ps[..i])).Err?
    ensures RunIn(v, p, Forwarded(ps)) == RunIn(v, p, Forwarded(ps[..i]))
  {
    ForwardedSplit(ps, i);
    RunCrashed(v, p, Forwarded(ps[..i]), Forwarded(ps[i..]));
  }

  /** The records forwarded from a read are those of its first `i` candidates followed by
      those of the rest. */
  lemma {:induction false} ForwardedSplit(ps: seq<seq<string>>, i: nat)
    requires i <= |ps|
    ensures Forwarded(ps) == Forwarded(ps[..i]) + Forwarded(ps[i..])
    decreases i
  {
    if i == 0 {
      assert ps[..0] == [] && ps[0..] == ps;
    } else {
      ForwardedSplit(ps[1..], i - 1);
      assert ps[..i][0] == ps[0] && ps[..i][1..] == ps[1..][..i - 1];
      assert ps[1..][i - 1..] == ps[i..];
    }
  }

  /** A run that raises raises the same way whatever follows it. */
  lemma RunCrashed(v: Variant, p: Parser, a: seq<seq<string>>, b: seq<seq<string>>)
    requires Good(p)
    requires forall k :: 0 <= k < |a| ==> |a[k]| == NumFields
    requires forall k :: 0 <= k < |b| ==> |b[k]| == NumFields
    requires RunIn(v, p, a).Err?
    ensures RunIn(v, p, a + b) == RunIn(v, p, a)
  {
    if v.Repaired? {
      RunAppend(p, a, b);
    } else {
      RunAsWrittenAppend(p, a, b);
    }
  }

  /** The ingest loop's pass over the candidates of a read, one at a time: a candidate
      of 22 fields is processed, stopping at the first that raises, and any other is
      skipped. */
  function Feed(v: Variant, p: Parser, ps: seq<seq<string>>): (r: Result<Parser, Crash>)
    requires Good(p)
    ensures r.Ok? ==> Good(r.value)
    decreases |ps|
  {
    if |ps| == 0 then Ok(p)
    else
      match Feed(v, p, ps[..|ps| - 1])
      case Err(c) => Err(c)
      case Ok(q) => if |ps[|ps| - 1]| == NumFields then Step(v, q, ps[|ps| - 1]) else Ok(q)
  }

  /** Passing over the candidates is running the merge engine on the forwarded ones. */
  lemma {:induction false} FeedIsRun(v: Variant, p: Parser, ps: seq<seq<string>>)
    requires Good(p)
    ensures Feed(v, p, ps) == RunIn(v, p, Forwarded(ps))
    decreases |ps|
  {
    if |ps| > 0 {
      FeedIsRun(v, p, ps[..|ps| - 1]);
      FeedIsRunStep(v, p, ps, |ps| - 1);
    }
  }

  lemma FeedIsRunStep(v: Variant, p: Parser, ps: seq<seq<string>>, i: nat)
    requires Good(p) && i + 1 == |ps| && Feed(v, p, ps[..i]) == RunIn(v, p, Forwarded(ps[..i]))
    ensures Feed(v, p, ps) == RunIn(v, p, Forwarded(ps))
  {
    assert ps[..i + 1] == ps;
    match Feed(v, p, ps[..i])
    case Ok(state) =>
      FeedStep(v, p, ps, i);
      FeedNext(v, p, ps, i, state);
    case Err(_) =>
      FeedStops(v, p, ps, i);
  }

  /** The pass over one more candidate continues from where the shorter pass stopped. */
  lemma FeedNext(v: Variant, p: Parser, ps: seq<seq<string>>, i: nat, state: Parser)
    requires Good(p) && i < |ps| && Feed(v, p, ps[..i]) == Ok(state)
    ensures Good(state)
    ensures Feed(v, p, ps[..i + 1]) == if |ps[i]| == NumFields then Step(v, state, ps[i]) else Ok(state)
  {
    assert ps[..i + 1][..i] == ps[..i];
  }

  /** Once a prefix of the candidates raises, the whole pass raises the same way. */
  lemma FeedCrashed(v: Variant, p: Parser, ps: seq<seq<string>>, i: nat)
    requires Good(p) && i <= |ps| && Feed(v, p, ps[..i]).Err?
    ensures Feed(v, p, ps) == Feed(v, p, ps[..i])
  {
    FeedIsRun(v, p, ps[..i]);
    FeedStops(v, p, ps, i);
    FeedIsRun(v, p, ps);
  }

  /** What one turn of the loop below needs: the pass and the leftover over one more
      candidate, and the whole pass once that candidate raises. */
  lemma FeedAdvance(v: Variant, p: Parser, ps: seq<seq<string>>, i: nat, state: Parser, leftover: seq<string>)
    requires Good(p) && i < |ps| && Feed(v, p, ps[..i]) == Ok(state)
    ensures Good(state)
    ensures Feed(v, p, ps[..i + 1]) == if |ps[i]| == NumFields then Step(v, state, ps[i]) else Ok(state)
    ensures NewLeftover(ps[..i + 1], leftover) == if |ps[i]| == NumFields then NewLeftover(ps[..i], leftover) else ps[i]
    ensures Feed(v, p, ps[..i + 1]).Err? ==> Feed(v, p, ps) == Feed(v, p, ps[..i + 1])
  {
    FeedNext(v, p, ps, i, state);
    LeftoverStep(ps, i, leftover);
    if Feed(v, p, ps[..i + 1]).Err? {
      FeedCrashed(v, p, ps, i + 1);
    }
  }

  /** One pass of the ingest loop over the candidates of a read: hand every 22-field
      candidate to the merge engine in order, stopping at the first that raises, and carry
      the last other candidate over to the next read. */
  method FeedPieces(v: Variant, p: Parser, ps: seq<seq<string>>, leftover: seq<string>)
    returns (outcome: Result<Parser, Crash>, carried: seq<string>)
    requires Good(p)
    ensures outcome == Feed(v, p, ps)
    ensures outcome.Ok? ==> carried == NewLeftover(ps, leftover)
  {
    var state := p;
    carried := leftover;
    var i := 0;
    assert ps[..0] == [];
    while i < |ps|
      invariant 0 <= i <= |ps|
      invariant Feed(v, p, ps[..i]) == Ok(state)
      invariant carried == NewLeftover(ps[..i], leftover)
    {
      FeedAdvance(v, p, ps, i, state, leftover);
      if |ps[i]| == NumFields {
        var step := Step(v, state, ps[i]);
        if step.Err? {
          outcome := step;
          return;
        }
        state := step.value;
      } else {
        carried := ps[i];
      }
      i := i + 1;
    }
    assert ps[..i] == ps;
    outcome := Ok(state);
  }

  /** The ingest loop's handling of one read (adsb_hub/main.py:50-57): as written, the
      leftover list goes in front of the first line's fields and each record goes to
      `process`; repaired, the leftover text is rejoined first and each record goes to the
      repaired step. */
  method FeedChunk(v: Variant, p: Parser, leftover: seq<string>, text: string)
    returns (outcome: Result<Parser, Crash>, carried: seq<string>)
    requires Good(p)
    ensures v.AsWritten? ==> outcome == RunAsWritten(p, Forwarded(Pieces(leftover, text)))
    ensures v.Repaired? ==> outcome == Run(p, Forwarded(ReassembledPieces(leftover, text)))
    ensures outcome.Ok? ==> carried == NewLeftover(Read(v, leftover, text), leftover)
  {
    outcome, carried := FeedPieces(v, p, Read(v, leftover, text), leftover);
    FeedIsRun(v, p, Read(v, leftover, text));
  }
}

=== FILE: results.dfy ===
/** Failure-carrying wrappers shared by the SBS-1 model. */
module Results {

  /** A value that may be absent (Python's `None`). */
  datatype Option<+T> = None | Some(value: T)

  /** The outcome of an operation that can raise: `Ok` with its value, or `Err` with
      what the raised exception leaves behind. */
  datatype Result<+T, +E> = Ok(value: T) | Err(error: E)
}

=== FILE: sbs1_parsing.dfy ===
/** The per-aircraft merge state machine of `SBS1Parser` (adsb_hub/sbs1_parsing.py):
    records of class "MSG" for one identifier are folded into a current entry, and the
    entry is judged for completeness one step late, when a record for a different
    identifier arrives. The shared table is the sequence of emitted rows. */
module Sbs1Parsing {
  import opened Results
  import opened Strings
  import opened Sbs1Protocol

  /** `FIELDS`: the column names of the output table, in slot order. */
  const Fields: seq<string> := [
    "message_type", "transmission_type", "session_id", "aircraft_id", "hex_ident",
    "flight_id", "date_message_generated", "time_message_generated", "date_message_logged",
    "time_message_logged", "call_sign", "altitude", "ground_speed", "track", "latitude",
    "longitude", "vertical_rate", "squawk", "alert_squawk_change", "emergency", "spi_ident",
    "ss_on_ground"]

  /** `NUM_FIELDS`. */
  const NumFields: nat := |Fields|

  /** A table row: the slots of an emitted entry. */
  type Row = seq<Value>

  /** The parser: the identifier of the last record seen, the entry being merged and the
      rows emitted so far. */
  datatype Parser = Parser(lastSeen: Option<string>, current: Option<Entry>, table: seq<Row>)

  /** What an exception in `process` leaves behind: its cause and the table as it stood
      when it was raised. */
  datatype Crash = Crash(reason: Reason, table: seq<Row>)

  /** `SBS1Parser.__init__`: nothing seen yet, no entry, an empty table. */
  const Init: Parser := Parser(None, None, [])

  /** The field list has 22 names, one per entry slot, and the slots the merge uses
      carry the expected names. */
  lemma FieldLayout()
    ensures NumFields == EntrySlots == 22
    ensures Fields[MessageTypeSlot] == "message_type" && Fields[TransmissionTypeSlot] == "transmission_type"
    ensures Fields[HexIdentSlot] == "hex_ident" && Fields[CallSignSlot] == "call_sign"
    ensures Fields[AltitudeSlot] == "altitude" && Fields[SquawkSlot] == "squawk"
  {
  }

  /** The table as it stands after a step, whether it returned or raised. */
  function TableAfter(r: Result<Parser, Crash>): seq<Row> {
    if r.Ok? then r.value.table else r.error.table
  }

  /** The shape of every emitted row: 22 slots, class "MSG", transmission type "0", and
      session, aircraft and flight ids -1. */
  predicate RowShape(row: Row) {
    && |row| == EntrySlots
    && row[0] == Str("MSG") && row[1] == Str("0")
    && row[2] == Int(-1) && row[3] == Int(-1) && row[5] == Int(-1)
  }

  /** Holds of every parser state reachable from `Init`. */
  predicate Good(p: Parser) {
    && (p.current.Some? ==> Valid(p.current.value) && p.current.value.messageType == "MSG" && p.current.value.seen != [])
    && forall k :: 0 <= k < |p.table| ==> RowShape(p.table[k])
  }

  lemma InitGood()
    ensures Good(Init) && Init.table == []
  {
  }

  /** The row the outgoing entry contributes when an identifier change closes it. */
  function Emitted(current: Option<Entry>): (rows: seq<Row>)
    ensures current.Some? && Valid(current.value) && current.value.messageType == "MSG" ==>
      forall k :: 0 <= k < |rows| ==> RowShape(rows[k])
    ensures |rows| == 1 <==> current.Some? && IsComplete(current.value.seen)
    ensures |rows| <= 1
    ensures |rows| == 1 ==> rows[0] == current.value.data
  {
    if current.Some? then
      if IsComplete(current.value.seen) then [current.value.data] else []
    else []
  }

  /** An entry that saw a tag twice, or never saw tag 6, is never emitted. */
  lemma IncompleteEntryNotEmitted(e: Entry)
    requires (exists i, j :: 0 <= i < j < |e.seen| && e.seen[i] == e.seen[j]) || 6 !in e.seen
    ensures Emitted(Some(e)) == []
  {
    IncompleteWithDuplicateOrWithoutSix(e.seen);
    CompleteIff(e.seen);
  }

  /** Appending the row of a good parser's entry keeps every row well shaped. */
  lemma AppendShaped(table: seq<Row>, rows: seq<Row>)
    requires forall k :: 0 <= k < |table| ==> RowShape(table[k])
    requires forall k :: 0 <= k < |rows| ==> RowShape(rows[k])
    ensures forall k :: 0 <= k < |table + rows| ==> RowShape((table + rows)[k])
  {
  }

  /** The identifier-change branch of `process`: emit the outgoing entry if complete, then
      open a fresh entry from the record, whether or not the old one was emitted. The
      append happens before the new entry is built, so it survives a raise there. */
  function StartEntry(p: Parser, rec: seq<string>): (r: Result<Parser, Crash>)
    requires Good(p) && |rec| == NumFields && rec[0] == "MSG"
    ensures TableAfter(r) == p.table + Emitted(p.current)
    ensures r.Ok? <==> TransmissionEntry(rec).Ok?
    ensures r.Err? ==> r.error.reason == TransmissionEntry(rec).error
    ensures r.Ok? ==> r.value.current == Some(TransmissionEntry(rec).value)
    ensures r.Ok? ==> r.value.lastSeen == Some(rec[HexIdentSlot]) && Good(r.value)
    ensures forall k :: 0 <= k < |TableAfter(r)| ==> RowShape(TableAfter(r)[k])
  {
    var table := p.table + Emitted(p.current);
    AppendShaped(p.table, Emitted(p.current));
    match TransmissionEntry(rec)
    case Err(reason) => Err(Crash(reason, table))
    case Ok(e) => Ok(Parser(Some(rec[HexIdentSlot]), Some(e), table))
  }

  /** `SBS1Parser.process`, as written. A record of another class only moves
      `lastSeen`. An "MSG" record with a new identifier closes the current entry and
      opens a fresh one; with the same identifier it is folded into the current entry,
      which raises when there is none. */
  function Process(p: Parser, rec: seq<string>): (r: Result<Parser, Crash>)
    requires Good(p) && |rec| == NumFields
    ensures p.table <= TableAfter(r) && |TableAfter(r)| <= |p.table| + 1
    ensures r.Ok? ==> r.value.lastSeen == Some(rec[HexIdentSlot]) && Good(r.value)
    ensures forall k :: 0 <= k < |TableAfter(r)| ==> RowShape(TableAfter(r)[k])
  {
    if rec[MessageTypeSlot] == "MSG" then
      if p.lastSeen != Some(rec[HexIdentSlot]) then
        StartEntry(p, rec)
      else
        match p.current
        case None => Err(Crash(NoCurrentEntry, p.table))
        case Some(e) =>
          match MoreData(e, rec)
          case Err(reason) => Err(Crash(reason, p.table))
          case Ok(e') => Ok(Parser(Some(rec[HexIdentSlot]), Some(e'), p.table))
    else
      Ok(p.(lastSeen := Some(rec[HexIdentSlot])))
  }

  /** A record of a class other than "MSG" only moves the last identifier seen: the
      current entry and the table stay as they are. */
  lemma ProcessOtherClass(p: Parser, rec: seq<string>)
    requires Good(p) && |rec| == NumFields && rec[0] != "MSG"
    ensures Process(p, rec) == Ok(Parser(Some(rec[HexIdentSlot]), p.current, p.table))
  {
  }

  /** An "MSG" record with a new identifier appends the outgoing entry's row if it is
      complete and replaces the current entry by a fresh one built from the record,
      whether or not the old one was appended. */
  lemma ProcessNewIdentifier(p: Parser, rec: seq<string>)
    requires Good(p) && |rec| == NumFields && rec[0] == "MSG" && p.lastSeen != Some(rec[HexIdentSlot])
    ensures Process(p, rec) == StartEntry(p, rec)
    ensures TableAfter(Process(p, rec)) == p.table + Emitted(p.current)
    ensures Process(p, rec).Ok? <==> TransmissionEntry(rec).Ok?
    ensures Process(p, rec).Ok? ==> Process(p, rec).value.current == Some(TransmissionEntry(rec).value)
  {
  }

  /** An "MSG" record repeating the last identifier leaves the table alone and is folded
      into the current entry; with no current entry it raises. */
  lemma ProcessSameIdentifier(p: Parser, rec: seq<string>)
    requires Good(p) && |rec| == NumFields && rec[0] == "MSG" && p.lastSeen == Some(rec[HexIdentSlot])
    ensures TableAfter(Process(p, rec)) == p.table
    ensures p.current.None? ==> Process(p, rec) == Err(Crash(NoCurrentEntry, p.table))
    ensures p.current.Some? ==>
      && (Process(p, rec).Ok? <==> MoreData(p.current.value, rec).Ok?)
      && (Process(p, rec).Ok? ==> Process(p, rec).value.current == Some(MoreData(p.current.value, rec).value))
  {
  }

  /** A row is appended exactly when an "MSG" record with a new identifier closes a
      complete entry (see `CompleteIff`), and the row is that entry's slots. */
  lemma ProcessAppendsIff(p: Parser, rec: seq<string>)
    requires Good(p) && |rec| == NumFields
    ensures |TableAfter(Process(p, rec))| == |p.table| + 1 <==>
      rec[0] == "MSG" && p.lastSeen != Some(rec[HexIdentSlot]) && p.current.Some? && IsComplete(p.current.value.seen)
    ensures |TableAfter(Process(p, rec))| == |p.table| + 1 ==>
      TableAfter(Process(p, rec))[|p.table|] == p.current.value.data
  {
  }

  /** `process` with the missing-entry case repaired: an "MSG" record that repeats the
      last identifier while no entry is open opens one, as a new identifier would. In
      every other case it is `Process`. */
  function ProcessFixed(p: Parser, rec: seq<string>): (r: Result<Parser, Crash>)
    requires Good(p) && |rec| == NumFields
    ensures r.Err? ==> r.error.reason.InvalidInt?
    ensures r.Ok? && rec[0] == "MSG" ==> r.value.current.Some? && r.value.current.value.seen != []
    ensures p.table <= TableAfter(r) && |TableAfter(r)| <= |p.table| + 1
    ensures r.Ok? ==> r.value.lastSeen == Some(rec[HexIdentSlot]) && Good(r.value)
    ensures forall k :: 0 <= k < |TableAfter(r)| ==> RowShape(TableAfter(r)[k])
  {
    if rec[MessageTypeSlot] == "MSG" && p.lastSeen == Some(rec[HexIdentSlot]) && p.current.None? then
      StartEntry(p, rec)
    else
      Process(p, rec)
  }

  /** The corrected engine differs from the code as written only where the latter crashes
      for want of an open entry. */
  lemma ProcessFixedAgrees(p: Parser, rec: seq<string>)
    requires Good(p) && |rec| == NumFields
    ensures Process(p, rec) != Err(Crash(NoCurrentEntry, p.table)) ==> ProcessFixed(p, rec) == Process(p, rec)
  {
  }

  /** The merge engine over a sequence of records, stopping at the first that raises. */
  function Run(p: Parser, recs: seq<seq<string>>): (r: Result<Parser, Crash>)
    requires Good(p)
    requires forall k :: 0 <= k < |recs| ==> |recs[k]| == NumFields
    ensures p.table <= TableAfter(r) && |TableAfter(r)| <= |p.table| + |recs|
    ensures r.Ok? ==> Good(r.value)
    ensures r.Ok? && |recs| > 0 ==> r.value.lastSeen == Some(recs[|recs| - 1][HexIdentSlot])
    ensures forall k :: 0 <= k < |TableAfter(r)| ==> RowShape(TableAfter(r)[k])
    decreases |recs|
  {
    if |recs| == 0 then Ok(p)
    else
      match ProcessFixed(p, recs[0])
      case Err(c) => Err(c)
      case Ok(q) => Run(q, recs[1..])
  }

  /** Running two record sequences back to back is running their concatenation. */
  lemma {:induction false} RunAppend(p: Parser, a: seq<seq<string>>, b: seq<seq<string>>)
    requires Good(p)
    requires forall k :: 0 <= k < |a| ==> |a[k]| == NumFields
    requires forall k :: 0 <= k < |b| ==> |b[k]| == NumFields
    ensures Run(p, a + b) == (match Run(p, a) case Ok(q) => Run(q, b) case Err(c) => Err(c))
    decreases |a|
  {
    if |a| > 0 {
      assert (a + b)[0] == a[0];
      assert (a + b)[1..] == a[1..] + b;
      var step := ProcessFixed(p, a[0]);
      if step.Ok? {
        RunAppend(step.value, a[1..], b);
        assert Run(p, a + b) == Run(step.value, a[1..] + b);
        assert Run(p, a) == Run(step.value, a[1..]);
      } else {
        assert Run(p, a + b) == Err(step.error);
        assert Run(p, a) == Err(step.error);
      }
    } else {
      assert a + b == b;
    }
  }

  /** The merge engine as written: the record loop over `Process`, stopping at the first
      record that raises. */
  function RunAsWritten(p: Parser, recs: seq<seq<string>>): (r: Result<Parser, Crash>)
    requires Good(p)
    requires forall k :: 0 <= k < |recs| ==> |recs[k]| == NumFields
    ensures p.table <= TableAfter(r) && |TableAfter(r)| <= |p.table| + |recs|
    ensures r.Ok? ==> Good(r.value)
    decreases |recs|
  {
    if |recs| == 0 then Ok(p)
    else
      match Process(p, recs[0])
      case Err(c) => Err(c)
      case Ok(q) => RunAsWritten(q, recs[1..])
  }

  /** The run as written and the repaired run agree, unless the run as written stops
      because a record was folded into an entry that does not exist. */
  lemma {:induction false} RunAsWrittenAgrees(p: Parser, recs: seq<seq<string>>)
    requires Good(p)
    requires forall k :: 0 <= k < |recs| ==> |recs[k]| == NumFields
    ensures RunAsWritten(p, recs) == Run(p, recs)
      || (RunAsWritten(p, recs).Err? && RunAsWritten(p, recs).error.reason == NoCurrentEntry)
    decreases |recs|
  {
    if |recs| > 0 {
      ProcessFixedAgrees(p, recs[0]);
      var step := Process(p, recs[0]);
      if step.Ok? {
        assert ProcessFixed(p, recs[0]) == step;
        RunAsWrittenAgrees(step.value, recs[1..]);
      }
    }
  }

  /** Once an entry is open it never closes without another opening, so the code as
      written never again raises for want of one: from then on it runs exactly as the
      repaired engine does. */
  lemma {:induction false} RunAsWrittenWithEntry(p: Parser, recs: seq<seq<string>>)
    requires Good(p) && p.current.Some?
    requires forall k :: 0 <= k < |recs| ==> |recs[k]| == NumFields
    ensures RunAsWritten(p, recs) == Run(p, recs)
    decreases |recs|
  {
    if |recs| > 0 {
      ProcessFixedAgrees(p, recs[0]);
      match Process(p, recs[0])
      case Err(c) =>
      case Ok(q) =>
        if recs[0][0] != "MSG" {
          ProcessOtherClass(p, recs[0]);
        }
        RunAsWrittenWithEntry(q, recs[1..]);
    }
  }

  /** A stream that opens with an "MSG" record for a new identifier runs as written
      exactly as the repaired engine runs it: that record opens an entry. */
  lemma RunAsWrittenOpening(p: Parser, recs: seq<seq<string>>)
    requires Good(p) && |recs| > 0
    requires forall k :: 0 <= k < |recs| ==> |recs[k]| == NumFields
    requires recs[0][0] == "MSG" && p.lastSeen != Some(recs[0][HexIdentSlot])
    ensures RunAsWritten(p, recs) == Run(p, recs)
  {
    assert ProcessFixed(p, recs[0]) == Process(p, recs[0]);
    match Process(p, recs[0])
    case Err(c) =>
    case Ok(q) => RunAsWrittenWithEntry(q, recs[1..]);
  }

  /** Running two record sequences back to back as written is running their
      concatenation. */
  lemma {:induction false} RunAsWrittenAppend(p: Parser, a: seq<seq<string>>, b: seq<seq<string>>)
    requires Good(p)
    requires forall k :: 0 <= k < |a| ==> |a[k]| == NumFields
    requires forall k :: 0 <= k < |b| ==> |b[k]| == NumFields
    ensures RunAsWritten(p, a + b) == (match RunAsWritten(p, a) case Ok(q) => RunAsWritten(q, b) case Err(c) => Err(c))
    decreases |a|
  {
    if |a| > 0 {
      assert (a + b)[0] == a[0];
      assert (a + b)[1..] == a[1..] + b;
      var step := Process(p, a[0]);
      if step.Ok? {
        RunAsWrittenAppend(step.value, a[1..], b);
        assert RunAsWritten(p, a + b) == RunAsWritten(step.value, a[1..] + b);
        assert RunAsWritten(p, a) == RunAsWritten(step.value, a[1..]);
      } else {
        assert RunAsWritten(p, a + b) == Err(step.error);
        assert RunAsWritten(p, a) == Err(step.error);
      }
    } else {
      assert a + b == b;
    }
  }

  /** A run of one record as written is that record's step. */
  lemma RunAsWrittenSingle(p: Parser, rec: seq<string>)
    requires Good(p) && |rec| == NumFields
    ensures RunAsWritten(p, [rec]) == Process(p, rec)
  {
    assert [rec][0] == rec && [rec][1..] == [];
    match Process(p, rec)
    case Err(c) =>
    case Ok(q) => assert RunAsWritten(q, []) == Ok(q);
  }

  /** Records of any class other than "MSG" never touch the current entry or the table. */
  lemma {:induction false} OtherClassesLeaveMergeAlone(p: Parser, recs: seq<seq<string>>)
    requires Good(p)
    requires forall k :: 0 <= k < |recs| ==> |recs[k]| == NumFields && recs[k][0] != "MSG"
    ensures Run(p, recs).Ok?
    ensures Run(p, recs).value.current == p.current && Run(p, recs).value.table == p.table
    decreases |recs|
  {
    if |recs| > 0 {
      var q := Parser(Some(recs[0][HexIdentSlot]), p.current, p.table);
      assert ProcessFixed(p, recs[0]) == Ok(q);
      OtherClassesLeaveMergeAlone(q, recs[1..]);
    }
  }

  /** The code as written raises on a stream that announces an aircraft with a 22-field
      record of another class (an "AIR" or "ID" record, say) before any "MSG" record has
      opened an entry, as at the start of a session: the identifier is then already the
      last one seen, so the record is folded into an entry that does not exist. */
  lemma ProcessCrashesWithoutEntry(p: Parser, announce: seq<string>, msg: seq<string>)
    requires Good(p) && p.current.None?
    requires |announce| == NumFields && |msg| == NumFields
    requires announce[0] != "MSG" && msg[0] == "MSG" && msg[HexIdentSlot] == announce[HexIdentSlot]
    ensures Process(p, announce).Ok?
    ensures Process(Process(p, announce).value, msg) == Err(Crash(NoCurrentEntry, p.table))
  {
  }

  /** With the repair, the same stream opens an entry for the announced aircraft. */
  lemma ProcessFixedOpensEntry(p: Parser, announce: seq<string>, msg: seq<string>)
    requires Good(p) && p.current.None?
    requires |announce| == NumFields && |msg| == NumFields
    requires announce[0] != "MSG" && msg[0] == "MSG" && msg[HexIdentSlot] == announce[HexIdentSlot]
    requires TransmissionEntry(msg).Ok?
    ensures ProcessFixed(p, announce).Ok?
    ensures ProcessFixed(ProcessFixed(p, announce).value, msg).Ok?
    ensures ProcessFixed(ProcessFixed(p, announce).value, msg).value.current
      == Some(TransmissionEntry(msg).value)
  {
  }

  /** Over a whole stream: while no entry is open, the run as written stops at the "MSG"
      record of an announced aircraft, and the repaired run goes on with that aircraft's
      entry open. */
  lemma AnnouncedAircraftStream(p: Parser, announce: seq<string>, msg: seq<string>)
    requires Good(p) && p.current.None?
    requires |announce| == NumFields && |msg| == NumFields
    requires announce[0] != "MSG" && msg[0] == "MSG" && msg[HexIdentSlot] == announce[HexIdentSlot]
    requires TransmissionEntry(msg).Ok?
    ensures RunAsWritten(p, [announce, msg]) == Err(Crash(NoCurrentEntry, p.table))
    ensures Run(p, [announce, msg]).Ok?
    ensures Run(p, [announce, msg]).value.current == Some(TransmissionEntry(msg).value)
  {
    ProcessCrashesWithoutEntry(p, announce, msg);
    ProcessFixedOpensEntry(p, announce, msg);
    var q := Process(p, announce).value;
    assert ProcessFixed(p, announce) == Ok(q);
    assert [announce, msg][0] == announce && [announce, msg][1..] == [msg];
    RunAsWrittenSingle(q, msg);
    RunSingle(q, msg);
  }

  /** A session starts with no entry open, so the stream above stops the code as written
      when it arrives as the first two records of a session. */
  lemma SessionStartCrash(announce: seq<string>, msg: seq<string>)
    requires |announce| == NumFields && |msg| == NumFields
    requires announce[0] != "MSG" && msg[0] == "MSG" && msg[HexIdentSlot] == announce[HexIdentSlot]
    requires TransmissionEntry(msg).Ok?
    ensures RunAsWritten(Init, [announce, msg]) == Err(Crash(NoCurrentEntry, []))
    ensures Run(Init, [announce, msg]).Ok?
    ensures Run(Init, [announce, msg]).value.current == Some(TransmissionEntry(msg).value)
  {
    InitGood();
    AnnouncedAircraftStream(Init, announce, msg);
  }

  /** A record for a new aircraft that arrives after a record of another class carrying
      its identifier is folded into the previous aircraft's entry: the fields are
      overwritten, but the entry keeps its identifier and does not count the record. */
  lemma ForeignRecordFoldedIntoCurrentEntry(p: Parser, rec: seq<string>)
    requires Good(p) && |rec| == NumFields
    requires p.current.Some? && p.current.value.uniqueId != rec[HexIdentSlot]
    requires p.lastSeen == Some(rec[HexIdentSlot]) && rec[0] == "MSG"
    requires ParseInt(rec[TransmissionTypeSlot]) == Some(1)
    ensures Process(p, rec).Ok?
    ensures Process(p, rec).value.table == p.table
    ensures Process(p, rec).value.current.value.uniqueId == p.current.value.uniqueId
    ensures Process(p, rec).value.current.value.seen == p.current.value.seen
    ensures Process(p, rec).value.current.value.data[CallSignSlot] == Str(rec[CallSignSlot])
  {
  }

  /** An "MSG" record for a new identifier, whose entry builds: the outgoing entry's
      row (if complete) is appended and the record opens the current entry. */
  lemma OpenStep(p: Parser, rec: seq<string>)
    requires Good(p) && |rec| == NumFields && rec[0] == "MSG"
    requires p.lastSeen != Some(rec[HexIdentSlot]) && TransmissionEntry(rec).Ok?
    ensures ProcessFixed(p, rec)
      == Ok(Parser(Some(rec[HexIdentSlot]), Some(TransmissionEntry(rec).value), p.table + Emitted(p.current)))
  {
  }

  /** An "MSG" record repeating the identifier of the open entry is folded into it. */
  lemma FoldStep(p: Parser, rec: seq<string>)
    requires Good(p) && |rec| == NumFields && rec[0] == "MSG"
    requires p.lastSeen == Some(rec[HexIdentSlot]) && p.current.Some?
    requires MoreData(p.current.value, rec).Ok?
    ensures ProcessFixed(p, rec)
      == Ok(Parser(Some(rec[HexIdentSlot]), Some(MoreData(p.current.value, rec).value), p.table))
  {
  }

  /** A run whose first step returns continues from the state that step leaves. */
  lemma RunFirstStep(p: Parser, recs: seq<seq<string>>, q: Parser)
    requires Good(p) && |recs| > 0
    requires forall k :: 0 <= k < |recs| ==> |recs[k]| == NumFields
    requires ProcessFixed(p, recs[0]) == Ok(q)
    ensures Good(q)
    ensures Run(p, recs) == Run(q, recs[1..])
  {
  }

  /** A run of one record is that record's step. */
  lemma RunSingle(p: Parser, rec: seq<string>)
    requires Good(p) && |rec| == NumFields
    ensures Run(p, [rec]) == ProcessFixed(p, rec)
  {
    assert [rec][0] == rec && [rec][1..] == [];
    match ProcessFixed(p, rec)
    case Err(c) =>
    case Ok(q) => assert Run(q, []) == Ok(q);
  }
}

=== FILE: sbs1_protocol.dfy ===
/** The composite SBS-1 entry: a fixed row of 22 slots that starts from protocol defaults
    and into which transmission messages of one aircraft are folded by their
    transmission type (adsb_hub/sbs1_protocol.py, repeated in adsb_hub/sbs1_parsing.py). */
module Sbs1Protocol {
  import opened Results
  import opened Strings
  import opened Sorting

  /** One slot of an entry. The Python list holds str, int, float and bool objects side
      by side; `Float` keeps the text a float was parsed from, since floating point is
      not modelled. */
  datatype Value = Str(s: string) | Int(n: int) | Float(literal: string) | Bool(b: bool)

  /** Why an operation raises: `int()` refused record field `field`, or a record was
      folded into an entry that does not exist. */
  datatype Reason = InvalidInt(field: nat) | NoCurrentEntry

  /** The number of slots in an entry and of fields in a record. */
  const EntrySlots: nat := 22

  /** Record and slot positions used by the fold. */
  const MessageTypeSlot := 0
  const TransmissionTypeSlot := 1
  const HexIdentSlot := 4
  const CallSignSlot := 10
  const AltitudeSlot := 11
  const SquawkSlot := 17

  /** The slot values of a fresh entry before anything is copied in. */
  const Defaults: seq<Value> := [
    Str(""), Str(""), Int(-1), Int(-1), Str(""), Int(-1), Str(""), Str(""), Str(""), Str(""),
    Str(""), Int(-1), Float("0.0"), Float("0.0"), Float("0.0"), Float("0.0"), Int(-1), Int(-1),
    Bool(false), Bool(false), Bool(false), Bool(false)]

  /** The sorted tag lists that make an entry complete. */
  const ValidMessageSets: seq<seq<int>> := [[1, 2, 6], [1, 3, 4, 6]]

  /** A composite entry: its slots, the identifier and message class of the record that
      opened it, how many of its own records were folded in and their tags in order. */
  datatype Entry = Entry(data: seq<Value>, uniqueId: string, messageType: string,
                         nMessages: nat, seen: seq<int>)

  /** `sbs1_int`: an int is kept, a numeric text becomes its value, any other text -1.
      Only ints and texts are ever passed; anything else would raise in Python. */
  function Sbs1Int(v: Value): (r: int)
    requires v.Int? || v.Str?
    ensures v.Int? ==> r == v.n
    ensures v.Str? ==> (r >= 0 <==> IsNumeric(v.s))
    ensures v.Str? && !IsNumeric(v.s) ==> r == -1
    ensures v.Str? && IsNumeric(v.s) ==> ParseInt(v.s) == Some(r)
  {
    if v.Int? then v.n else if IsNumeric(v.s) then DigitsValue(v.s) else -1
  }

  /** The empty field and "N/A" become -1, and so does a negative number such as a
      descent rate, since its minus sign is not numeric. */
  lemma Sbs1IntRejects()
    ensures Sbs1Int(Str("")) == -1 && Sbs1Int(Str("N/A")) == -1
    ensures Sbs1Int(Str("-640")) == -1 && ParseInt("-640") == Some(-640)
  {
    assert !IsDigit('-') && !IsDigit('N');
    assert "-640"[0] == '-' && !IsNumeric("-640");
    assert "-640"[1..] == "640" && IsNumeric("640");
    assert "6"[..0] == "" && DigitsValue("6") == 6;
    assert "64"[..1] == "6" && DigitsValue("64") == 64;
    assert "640"[..2] == "64" && DigitsValue("640") == 640;
  }

  /** `sbs1_boolean`: the flag is set exactly when the field reads "-1". */
  function Sbs1Boolean(field: string): (r: int)
    ensures r == 1 <==> field == "-1"
    ensures r == 0 <==> field != "-1"
  {
    if field == "-1" then 1 else 0
  }

  /** The slots a message of transmission type `tag` writes. */
  function SlotsFor(tag: int): set<int> {
    if tag == 1 then {10}
    else if tag == 3 then {11, 14, 15, 18, 19, 20, 21}
    else if tag == 4 then {12, 13, 16}
    else if tag == 6 then {11, 17, 18, 19, 20, 21}
    else {}
  }

  /** Holds of every entry the code builds: 22 slots, the identifying slots mirror the
      attributes, the transmission-type slot reads "0", the session, aircraft and flight
      ids are -1, and the message counter matches the tag list. */
  predicate Valid(e: Entry) {
    && |e.data| == EntrySlots
    && e.data[0] == Str(e.messageType)
    && e.data[1] == Str("0")
    && e.data[4] == Str(e.uniqueId)
    && e.data[2] == Int(-1) && e.data[3] == Int(-1) && e.data[5] == Int(-1)
    && e.nMessages == |e.seen|
  }

  /** `SBS1Entry.__init__`: defaults with the message class and identifier copied in. The
      session, aircraft and flight ids are coerced from the defaults, not from the record,
      so they stay -1. */
  function BaseEntry(rec: seq<string>): (e: Entry)
    requires |rec| > HexIdentSlot
    ensures |e.data| == EntrySlots
    ensures e.data[0] == Str(rec[0]) && e.data[4] == Str(rec[4])
    ensures e.data[2] == Int(-1) && e.data[3] == Int(-1) && e.data[5] == Int(-1)
    ensures forall i :: 0 <= i < EntrySlots && i != 0 && i != 4 ==> e.data[i] == Defaults[i]
    ensures e.uniqueId == rec[4] && e.messageType == rec[0]
    ensures e.nMessages == 0 && e.seen == []
  {
    var named := Defaults[HexIdentSlot := Str(rec[HexIdentSlot])][MessageTypeSlot := Str(rec[MessageTypeSlot])];
    var ids := named[2 := Int(Sbs1Int(named[2]))][3 := Int(Sbs1Int(named[3]))][5 := Int(Sbs1Int(named[5]))];
    Entry(ids, rec[HexIdentSlot], rec[MessageTypeSlot], 0, [])
  }

  /** The four alert, emergency, SPI and on-ground flags read from record fields 18-21. */
  function SetFlags(data: seq<Value>, rec: seq<string>): (d: seq<Value>)
    requires |data| == EntrySlots && |rec| == EntrySlots
    ensures |d| == EntrySlots
    ensures forall i :: 18 <= i < 22 ==> d[i] == Int(Sbs1Boolean(rec[i]))
    ensures forall i :: 0 <= i < 18 ==> d[i] == data[i]
  {
    data[18 := Int(Sbs1Boolean(rec[18]))][19 := Int(Sbs1Boolean(rec[19]))]
        [20 := Int(Sbs1Boolean(rec[20]))][21 := Int(Sbs1Boolean(rec[21]))]
  }

  /** The field dispatch of `more_data`: copy the fields a message of type `tag` carries,
      coerced per slot. Types 3 and 6 raise when the altitude is not an integer. */
  function FoldFields(data: seq<Value>, tag: int, rec: seq<string>): (r: Result<seq<Value>, Reason>)
    requires |data| == EntrySlots && |rec| == EntrySlots
    ensures r.Err? <==> (tag == 3 || tag == 6) && ParseInt(rec[AltitudeSlot]).None?
    ensures r.Err? ==> r.error == InvalidInt(AltitudeSlot)
    ensures r.Ok? ==> |r.value| == EntrySlots
    ensures r.Ok? ==> forall i :: 0 <= i < CallSignSlot ==> r.value[i] == data[i]
  {
    if tag == 1 then
      Ok(data[CallSignSlot := Str(rec[CallSignSlot])])
    else if tag == 3 then
      match ParseInt(rec[AltitudeSlot])
      case None => Err(InvalidInt(AltitudeSlot))
      case Some(altitude) =>
        Ok(SetFlags(data[AltitudeSlot := Int(altitude)][14 := Float(rec[14])][15 := Float(rec[15])], rec))
    else if tag == 4 then
      Ok(data[12 := Float(rec[12])][13 := Float(rec[13])][16 := Int(Sbs1Int(Str(rec[16])))])
    else if tag == 6 then
      match ParseInt(rec[AltitudeSlot])
      case None => Err(InvalidInt(AltitudeSlot))
      case Some(altitude) =>
        Ok(SetFlags(data[AltitudeSlot := Int(altitude)][SquawkSlot := Str(rec[SquawkSlot])], rec))
    else
      Ok(data)
  }

  /** A message writes only the slots of its type; every other slot keeps its value. */
  lemma FoldFieldsFrame(data: seq<Value>, tag: int, rec: seq<string>)
    requires |data| == EntrySlots && |rec| == EntrySlots && FoldFields(data, tag, rec).Ok?
    ensures forall i :: 0 <= i < EntrySlots && i !in SlotsFor(tag) ==> FoldFields(data, tag, rec).value[i] == data[i]
  {
  }

  /** What each transmission type writes: type 1 the call sign; types 3 and 6 the altitude
      and the four flags; type 3 latitude and longitude; type 4 ground speed, track and
      vertical rate; type 6 the squawk. */
  lemma FoldFieldsWrites(data: seq<Value>, tag: int, rec: seq<string>)
    requires |data| == EntrySlots && |rec| == EntrySlots && FoldFields(data, tag, rec).Ok?
    ensures var d := FoldFields(data, tag, rec).value;
      && (tag == 1 ==> d[CallSignSlot] == Str(rec[CallSignSlot]))
      && ((tag == 3 || tag == 6) ==>
            && d[AltitudeSlot] == Int(ParseInt(rec[AltitudeSlot]).value)
            && forall i :: 18 <= i < 22 ==> d[i] == Int(Sbs1Boolean(rec[i])))
      && (tag == 3 ==> d[14] == Float(rec[14]) && d[15] == Float(rec[15]))
      && (tag == 4 ==> d[12] == Float(rec[12]) && d[13] == Float(rec[13]) && d[16] == Int(Sbs1Int(Str(rec[16]))))
      && (tag == 6 ==> d[SquawkSlot] == Str(rec[SquawkSlot]))
  {
  }

  /** `more_data`: parse the transmission type, count the record and log its tag only if
      it carries the entry's own identifier, then fold its fields in whatever the
      identifier. */
  function MoreData(e: Entry, rec: seq<string>): (r: Result<Entry, Reason>)
    requires |e.data| == EntrySlots && |rec| == EntrySlots
    ensures ParseInt(rec[1]).None? ==> r == Err(InvalidInt(TransmissionTypeSlot))
    ensures ParseInt(rec[1]).Some? ==>
      var tag := ParseInt(rec[1]).value;
      && (r.Err? <==> (tag == 3 || tag == 6) && ParseInt(rec[AltitudeSlot]).None?)
      && (r.Ok? ==>
        && r.value.uniqueId == e.uniqueId && r.value.messageType == e.messageType
        && |r.value.data| == EntrySlots
        && FoldFields(e.data, tag, rec) == Ok(r.value.data)
        && (rec[4] == e.uniqueId ==> r.value.nMessages == e.nMessages + 1 && r.value.seen == e.seen + [tag])
        && (rec[4] != e.uniqueId ==> r.value.nMessages == e.nMessages && r.value.seen == e.seen))
    ensures r.Ok? && Valid(e) ==> Valid(r.value)
  {
    match ParseInt(rec[TransmissionTypeSlot])
    case None => Err(InvalidInt(TransmissionTypeSlot))
    case Some(tag) =>
      var counted := if e.uniqueId == rec[HexIdentSlot]
                     then e.(nMessages := e.nMessages + 1, seen := e.seen + [tag])
                     else e;
      match FoldFields(counted.data, tag, rec)
      case Err(reason) => Err(reason)
      case Ok(data) => Ok(counted.(data := data))
  }

  /** `TransmissionMsgEntry.__init__`: a base entry whose transmission-type slot is set to
      "0" (several types are merged into it), with the opening record folded in. */
  function TransmissionEntry(rec: seq<string>): (r: Result<Entry, Reason>)
    requires |rec| == EntrySlots
    ensures ParseInt(rec[1]).None? ==> r == Err(InvalidInt(TransmissionTypeSlot))
    ensures ParseInt(rec[1]).Some? ==>
      var tag := ParseInt(rec[1]).value;
      && (r.Err? <==> (tag == 3 || tag == 6) && ParseInt(rec[AltitudeSlot]).None?)
      && (r.Ok? ==>
        && Valid(r.value)
        && r.value.uniqueId == rec[4] && r.value.messageType == rec[0]
        && r.value.nMessages == 1 && r.value.seen == [tag])
  {
    var base := BaseEntry(rec);
    MoreData(base.(data := base.data[TransmissionTypeSlot := Str("0")]), rec)
  }

  /** A fresh entry holds the defaults in every slot its opening message does not write,
      apart from the message class, transmission type and identifier. */
  lemma FreshEntryDefaults(rec: seq<string>)
    requires |rec| == EntrySlots && TransmissionEntry(rec).Ok?
    ensures forall i :: 0 <= i < EntrySlots && i !in SlotsFor(ParseInt(rec[1]).value) && i != 0 && i != 1 && i != 4 ==>
      TransmissionEntry(rec).value.data[i] == Defaults[i]
  {
    var base := BaseEntry(rec);
    var start := base.data[TransmissionTypeSlot := Str("0")];
    FoldFieldsFrame(start, ParseInt(rec[1]).value, rec);
  }

  /** How many of `recs` carry identifier `id`. */
  function CountOf(recs: seq<seq<string>>, id: string): nat
    requires forall k :: 0 <= k < |recs| ==> |recs[k]| == EntrySlots
  {
    if |recs| == 0 then 0
    else (if recs[0][HexIdentSlot] == id then 1 else 0) + CountOf(recs[1..], id)
  }

  /** Fold a run of records into an entry with `more_data`, stopping at the first that
      raises. The entry keeps 22 slots throughout and counts exactly its own records. */
  function FoldAll(e: Entry, recs: seq<seq<string>>): (r: Result<Entry, Reason>)
    requires Valid(e)
    requires forall k :: 0 <= k < |recs| ==> |recs[k]| == EntrySlots
    ensures r.Ok? ==> Valid(r.value) && |r.value.data| == EntrySlots
    ensures r.Ok? ==> r.value.uniqueId == e.uniqueId
    ensures r.Ok? ==> r.value.nMessages == e.nMessages + CountOf(recs, e.uniqueId)
    ensures r.Ok? ==> e.seen <= r.value.seen
    decreases |recs|
  {
    if |recs| == 0 then Ok(e)
    else
      match MoreData(e, recs[0])
      case Err(reason) => Err(reason)
      case Ok(e') => FoldAll(e', recs[1..])
  }

  /** A type-1 record opens an entry that holds its call sign and its tag. */
  lemma OpenWithCallSign(rec: seq<string>)
    requires |rec| == EntrySlots && ParseInt(rec[TransmissionTypeSlot]) == Some(1)
    ensures TransmissionEntry(rec).Ok?
    ensures TransmissionEntry(rec).value.seen == [1]
    ensures TransmissionEntry(rec).value.data[CallSignSlot] == Str(rec[CallSignSlot])
  {
    var base := BaseEntry(rec);
    var e := base.(data := base.data[TransmissionTypeSlot := Str("0")]);
    assert FoldFields(e.data, 1, rec) == Ok(e.data[CallSignSlot := Str(rec[CallSignSlot])]);
  }

  /** A record of the entry's own aircraft whose type writes no slot (type 2, say) only
      counts and logs its tag. */
  lemma FoldTagOnly(e: Entry, rec: seq<string>, tag: int)
    requires |e.data| == EntrySlots && |rec| == EntrySlots
    requires rec[HexIdentSlot] == e.uniqueId && ParseInt(rec[TransmissionTypeSlot]) == Some(tag)
    requires tag != 1 && tag != 3 && tag != 4 && tag != 6
    ensures MoreData(e, rec).Ok?
    ensures MoreData(e, rec).value.data == e.data
    ensures MoreData(e, rec).value.seen == e.seen + [tag]
  {
  }

  /** A type-6 record of the entry's own aircraft sets altitude and squawk and leaves the
      call sign alone. */
  lemma FoldSurveillance(e: Entry, rec: seq<string>)
    requires |e.data| == EntrySlots && |rec| == EntrySlots
    requires rec[HexIdentSlot] == e.uniqueId && ParseInt(rec[TransmissionTypeSlot]) == Some(6)
    requires ParseInt(rec[AltitudeSlot]).Some?
    ensures MoreData(e, rec).Ok?
    ensures MoreData(e, rec).value.seen == e.seen + [6]
    ensures MoreData(e, rec).value.data[CallSignSlot] == e.data[CallSignSlot]
    ensures MoreData(e, rec).value.data[SquawkSlot] == Str(rec[SquawkSlot])
    ensures MoreData(e, rec).value.data[AltitudeSlot] == Int(ParseInt(rec[AltitudeSlot]).value)
  {
    assert CallSignSlot !in SlotsFor(6);
  }

  /** The completion test of `process`: the sorted tag list is one of the valid sets. */
  predicate IsComplete(seen: seq<int>)
    ensures IsComplete(seen) ==> 1 in seen && 6 in seen && (|seen| == 3 || |seen| == 4)
  {
    Sort(seen) in ValidMessageSets
  }

  /** An entry is complete exactly when its tags are, as a multiset, {1, 2, 6} or
      {1, 3, 4, 6}. */
  lemma CompleteIff(seen: seq<int>)
    ensures IsComplete(seen) <==>
      multiset(seen) == multiset{1, 2, 6} || multiset(seen) == multiset{1, 3, 4, 6}
  {
    var sorted := Sort(seen);
    assert IsComplete(seen) <==> sorted in ValidMessageSets;
    assert sorted in ValidMessageSets <==> sorted == ValidMessageSets[0] || sorted == ValidMessageSets[1];
    SortsToOneTwoSix(seen);
    SortsToOneThreeFourSix(seen);
  }

  lemma SortsToOneTwoSix(seen: seq<int>)
    ensures Sort(seen) == [1, 2, 6] <==> multiset(seen) == multiset{1, 2, 6}
  {
    var a: seq<int> := [1, 2, 6];
    assert Sorted(a);
    assert multiset(a) == multiset{1, 2, 6};
    SortEqualsIff(seen, a);
  }

  lemma SortsToOneThreeFourSix(seen: seq<int>)
    ensures Sort(seen) == [1, 3, 4, 6] <==> multiset(seen) == multiset{1, 3, 4, 6}
  {
    var b: seq<int> := [1, 3, 4, 6];
    assert Sorted(b);
    assert multiset(b) == multiset{1, 3, 4, 6};
    SortEqualsIff(seen, b);
  }

  /** A tag seen twice, or a missing type 6, rules completion out. */
  lemma IncompleteWithDuplicateOrWithoutSix(seen: seq<int>)
    ensures (exists i, j :: 0 <= i < j < |seen| && seen[i] == seen[j]) ==> !IsComplete(seen)
    ensures 6 !in seen ==> !IsComplete(seen)
  {
    CompleteIff(seen);
    if i, j :| 0 <= i < j < |seen| && seen[i] == seen[j] {
      TwiceInMultiset(seen, i, j);
      ValidSetsHoldEachOnce(seen[i]);
    }
    if 6 !in seen {
      assert multiset(seen)[6] == 0;
      assert multiset{1, 2, 6}[6] == 1 && multiset{1, 3, 4, 6}[6] == 1;
    }
  }

  /** No valid tag set holds a tag twice. */
  lemma ValidSetsHoldEachOnce(x: int)
    ensures multiset{1, 2, 6}[x] <= 1 && multiset{1, 3, 4, 6}[x] <= 1
  {
  }

  lemma TwiceInMultiset(s: seq<int>, i: int, j: int)
    requires 0 <= i < j < |s| && s[i] == s[j]
    ensures multiset(s)[s[i]] >= 2
  {
    assert s == s[..j] + s[j..];
    assert s[i] in s[..j];
    assert s[j] in s[j..];
  }
}

=== FILE: sbs1_tracks.dfy ===
/** Whole aircraft tracks through the merge engine: which sequences of transmission
    messages produce a table row, and what the row holds. */
module Sbs1Tracks {
  import opened Results
  import opened Strings
  import opened Sbs1Protocol
  import opened Sbs1Parsing

  /** Every record is an "MSG" record of aircraft `id`. */
  predicate OneAircraft(recs: seq<seq<string>>, id: string) {
    forall k :: 0 <= k < |recs| ==> |recs[k]| == NumFields && recs[k][0] == "MSG" && recs[k][HexIdentSlot] == id
  }

  /** One step of a track: the next record of the open entry's aircraft. */
  lemma TrackStep(q: Parser, id: string, recs: seq<seq<string>>, e: Entry)
    requires Good(q) && q.current.Some? && q.lastSeen == Some(id)
    requires |recs| > 0 && OneAircraft(recs, id)
    requires FoldAll(q.current.value, recs) == Ok(e)
    ensures MoreData(q.current.value, recs[0]).Ok?
    ensures var q' := Parser(Some(id), Some(MoreData(q.current.value, recs[0]).value), q.table);
      && Good(q') && Run(q, recs) == Run(q', recs[1..])
      && FoldAll(q'.current.value, recs[1..]) == Ok(e)
  {
    var e1 := MoreData(q.current.value, recs[0]).value;
    FoldStep(q, recs[0]);
    var q' := Parser(Some(id), Some(e1), q.table);
    RunFirstStep(q, recs, q');
  }

  /** While the records keep the open entry's identifier, the run folds each of them into
      that entry and the table does not change. */
  lemma {:induction false} RunFoldsTrack(q: Parser, id: string, recs: seq<seq<string>>, e: Entry)
    requires Good(q) && q.current.Some? && q.lastSeen == Some(id)
    requires OneAircraft(recs, id)
    requires FoldAll(q.current.value, recs) == Ok(e)
    ensures Run(q, recs) == Ok(Parser(Some(id), Some(e), q.table))
    ensures RunAsWritten(q, recs) == Run(q, recs)
    decreases |recs|
  {
    RunAsWrittenWithEntry(q, recs);
    if |recs| > 0 {
      TrackStep(q, id, recs, e);
      var q' := Parser(Some(id), Some(MoreData(q.current.value, recs[0]).value), q.table);
      RunFoldsTrack(q', id, recs[1..], e);
    }
  }

  /** The record that closes a track: an "MSG" record for another aircraft appends the
      track's entry when it is complete. */
  lemma CloseTrack(q: Parser, next: seq<string>)
    requires Good(q) && |next| == NumFields && next[0] == "MSG" && q.lastSeen != Some(next[HexIdentSlot])
    ensures TableAfter(Run(q, [next])) == q.table + Emitted(q.current)
  {
    RunSingle(q, next);
    ProcessNewIdentifier(q, next);
  }

  /** A track of one aircraft that opens with a new identifier leaves that track's
      entry open, after appending what closing the previous entry adds. */
  lemma TrackRun(p: Parser, first: seq<string>, rest: seq<seq<string>>, e: Entry)
    requires Good(p) && |first| == NumFields && first[0] == "MSG"
    requires p.lastSeen != Some(first[HexIdentSlot]) && TransmissionEntry(first).Ok?
    requires OneAircraft(rest, first[HexIdentSlot])
    requires FoldAll(TransmissionEntry(first).value, rest) == Ok(e)
    ensures Run(p, [first] + rest) == Ok(Parser(Some(first[HexIdentSlot]), Some(e), p.table + Emitted(p.current)))
  {
    var id := first[HexIdentSlot];
    var q1 := Parser(Some(id), Some(TransmissionEntry(first).value), p.table + Emitted(p.current));
    OpenStep(p, first);
    OpenThenRest(p, first, rest, q1);
    RunFoldsTrack(q1, id, rest, e);
  }

  lemma OpenThenRest(p: Parser, first: seq<string>, rest: seq<seq<string>>, q1: Parser)
    requires Good(p) && |first| == NumFields && ProcessFixed(p, first) == Ok(q1)
    requires forall k :: 0 <= k < |rest| ==> |rest[k]| == NumFields
    ensures Good(q1) && Run(p, [first] + rest) == Run(q1, rest)
  {
    RunFirstStep(p, [first] + rest, q1);
    assert ([first] + rest)[1..] == rest;
  }

  /** A whole track of one aircraft followed by a record for another: the table gains the
      track's entry if it is complete and nothing else, besides what closing the
      previous entry adds. */
  lemma TrackThenChange(p: Parser, first: seq<string>, rest: seq<seq<string>>, next: seq<string>, e: Entry)
    requires Good(p) && |first| == NumFields && first[0] == "MSG"
    requires p.lastSeen != Some(first[HexIdentSlot]) && TransmissionEntry(first).Ok?
    requires OneAircraft(rest, first[HexIdentSlot])
    requires FoldAll(TransmissionEntry(first).value, rest) == Ok(e)
    requires |next| == NumFields && next[0] == "MSG" && next[HexIdentSlot] != first[HexIdentSlot]
    ensures TableAfter(Run(p, [first] + rest + [next])) == p.table + Emitted(p.current) + Emitted(Some(e))
    ensures RunAsWritten(p, [first] + rest + [next]) == Run(p, [first] + rest + [next])
  {
    assert ([first] + rest + [next])[0] == first;
    RunAsWrittenOpening(p, [first] + rest + [next]);
    var q := Parser(Some(first[HexIdentSlot]), Some(e), p.table + Emitted(p.current));
    TrackRun(p, first, rest, e);
    RunAppend(p, [first] + rest, [next]);
    CloseTrack(q, next);
  }

  /** Types 1, 2 and 6 for one aircraft, then any "MSG" record for another: exactly one
      row is added for that aircraft, carrying the call sign of the type-1 record and the
      squawk and altitude of the type-6 record. */
  lemma CompleteTrackEmitted(p: Parser, r1: seq<string>, r2: seq<string>, r6: seq<string>, next: seq<string>)
    returns (row: Row)
    requires Good(p) && |r1| == NumFields && |r2| == NumFields && |r6| == NumFields && |next| == NumFields
    requires r1[0] == "MSG" && r2[0] == "MSG" && r6[0] == "MSG" && next[0] == "MSG"
    requires r2[HexIdentSlot] == r1[HexIdentSlot] && r6[HexIdentSlot] == r1[HexIdentSlot]
    requires next[HexIdentSlot] != r1[HexIdentSlot] && p.lastSeen != Some(r1[HexIdentSlot])
    requires ParseInt(r1[1]) == Some(1) && ParseInt(r2[1]) == Some(2) && ParseInt(r6[1]) == Some(6)
    requires ParseInt(r6[AltitudeSlot]).Some?
    ensures TableAfter(Run(p, [r1, r2, r6, next])) == p.table + Emitted(p.current) + [row]
    ensures TableAfter(RunAsWritten(p, [r1, r2, r6, next])) == p.table + Emitted(p.current) + [row]
    ensures |row| == EntrySlots
    ensures row[HexIdentSlot] == Str(r1[HexIdentSlot]) && row[CallSignSlot] == Str(r1[CallSignSlot])
    ensures row[SquawkSlot] == Str(r6[SquawkSlot])
    ensures row[AltitudeSlot] == Int(ParseInt(r6[AltitudeSlot]).value)
  {
    var e := EntryOneTwoSix(r1, r2, r6);
    assert [r1, r2, r6, next] == [r1] + [r2, r6] + [next];
    CompleteTrackThenChange(p, r1, [r2, r6], next, e);
    row := e.data;
  }

  /** `TrackThenChange` for a track whose tags are 1, 2 and 6. */
  lemma CompleteTrackThenChange(p: Parser, first: seq<string>, rest: seq<seq<string>>, next: seq<string>, e: Entry)
    requires Good(p) && |first| == NumFields && first[0] == "MSG"
    requires p.lastSeen != Some(first[HexIdentSlot]) && TransmissionEntry(first).Ok?
    requires OneAircraft(rest, first[HexIdentSlot])
    requires FoldAll(TransmissionEntry(first).value, rest) == Ok(e) && e.seen == [1, 2, 6]
    requires |next| == NumFields && next[0] == "MSG" && next[HexIdentSlot] != first[HexIdentSlot]
    ensures TableAfter(Run(p, [first] + rest + [next])) == p.table + Emitted(p.current) + [e.data]
    ensures RunAsWritten(p, [first] + rest + [next]) == Run(p, [first] + rest + [next])
  {
    TrackThenChange(p, first, rest, next, e);
    CompleteEntryEmitted(e);
  }

  /** An entry whose tags are exactly 1, 2 and 6 is emitted as one row. */
  lemma CompleteEntryEmitted(e: Entry)
    requires e.seen == [1, 2, 6]
    ensures Emitted(Some(e)) == [e.data]
  {
    CompleteIff(e.seen);
    assert multiset(e.seen) == multiset{1, 2, 6};
  }

  /** The entry that types 1, 2 and 6 of one aircraft build. */
  lemma EntryOneTwoSix(r1: seq<string>, r2: seq<string>, r6: seq<string>) returns (e: Entry)
    requires |r1| == NumFields && |r2| == NumFields && |r6| == NumFields
    requires r2[HexIdentSlot] == r1[HexIdentSlot] && r6[HexIdentSlot] == r1[HexIdentSlot]
    requires ParseInt(r1[1]) == Some(1) && ParseInt(r2[1]) == Some(2) && ParseInt(r6[1]) == Some(6)
    requires ParseInt(r6[AltitudeSlot]).Some?
    ensures TransmissionEntry(r1).Ok? && FoldAll(TransmissionEntry(r1).value, [r2, r6]) == Ok(e)
    ensures e.seen == [1, 2, 6] && |e.data| == EntrySlots
    ensures e.data[HexIdentSlot] == Str(r1[HexIdentSlot]) && e.data[CallSignSlot] == Str(r1[CallSignSlot])
    ensures e.data[SquawkSlot] == Str(r6[SquawkSlot])
    ensures e.data[AltitudeSlot] == Int(ParseInt(r6[AltitudeSlot]).value)
  {
    OpenWithCallSign(r1);
    var e1 := TransmissionEntry(r1).value;
    FoldTagOnly(e1, r2, 2);
    var e2 := MoreData(e1, r2).value;
    FoldSurveillance(e2, r6);
    e := MoreData(e2, r6).value;
    FoldAllTwo(e1, r2, r6, e2, e);
  }

  /** Types 1 and 6 alone never make a complete entry: the identifier change that closes
      it adds nothing for that aircraft. */
  lemma IncompleteTrackDropped(p: Parser, r1: seq<string>, r6: seq<string>, next: seq<string>)
    requires Good(p) && |r1| == NumFields && |r6| == NumFields && |next| == NumFields
    requires r1[0] == "MSG" && r6[0] == "MSG" && next[0] == "MSG"
    requires r6[HexIdentSlot] == r1[HexIdentSlot]
    requires next[HexIdentSlot] != r1[HexIdentSlot] && p.lastSeen != Some(r1[HexIdentSlot])
    requires ParseInt(r1[1]) == Some(1) && ParseInt(r6[1]) == Some(6)
    requires ParseInt(r6[AltitudeSlot]).Some?
    ensures TableAfter(Run(p, [r1, r6, next])) == p.table + Emitted(p.current)
    ensures TableAfter(RunAsWritten(p, [r1, r6, next])) == p.table + Emitted(p.current)
  {
    var e := EntryOneSix(r1, r6);
    assert [r1, r6, next] == [r1] + [r6] + [next];
    IncompleteTrackThenChange(p, r1, [r6], next, e);
  }

  /** `TrackThenChange` for a track whose tags are 1 and 6. */
  lemma IncompleteTrackThenChange(p: Parser, first: seq<string>, rest: seq<seq<string>>, next: seq<string>, e: Entry)
    requires Good(p) && |first| == NumFields && first[0] == "MSG"
    requires p.lastSeen != Some(first[HexIdentSlot]) && TransmissionEntry(first).Ok?
    requires OneAircraft(rest, first[HexIdentSlot])
    requires FoldAll(TransmissionEntry(first).value, rest) == Ok(e) && e.seen == [1, 6]
    requires |next| == NumFields && next[0] == "MSG" && next[HexIdentSlot] != first[HexIdentSlot]
    ensures TableAfter(Run(p, [first] + rest + [next])) == p.table + Emitted(p.current)
    ensures RunAsWritten(p, [first] + rest + [next]) == Run(p, [first] + rest + [next])
  {
    TrackThenChange(p, first, rest, next, e);
    IncompleteEntryDropped(e);
  }

  /** An entry whose tags are only 1 and 6 is not emitted. */
  lemma IncompleteEntryDropped(e: Entry)
    requires e.seen == [1, 6]
    ensures Emitted(Some(e)) == []
  {
    assert multiset(e.seen) == multiset{1, 6};
    CompleteIff(e.seen);
    assert !IsComplete(e.seen) by {
      assert multiset{1, 6}[2] == 0 && multiset{1, 2, 6}[2] == 1;
      assert multiset{1, 6}[3] == 0 && multiset{1, 3, 4, 6}[3] == 1;
    }
  }

  /** The entry that types 1 and 6 of one aircraft build. */
  lemma EntryOneSix(r1: seq<string>, r6: seq<string>) returns (e: Entry)
    requires |r1| == NumFields && |r6| == NumFields && r6[HexIdentSlot] == r1[HexIdentSlot]
    requires ParseInt(r1[1]) == Some(1) && ParseInt(r6[1]) == Some(6)
    requires ParseInt(r6[AltitudeSlot]).Some?
    ensures TransmissionEntry(r1).Ok? && FoldAll(TransmissionEntry(r1).value, [r6]) == Ok(e)
    ensures e.seen == [1, 6]
  {
    OpenWithCallSign(r1);
    var e1 := TransmissionEntry(r1).value;
    FoldSurveillance(e1, r6);
    e := MoreData(e1, r6).value;
    FoldAllOne(e1, r6);
  }

  lemma FoldAllOne(e: Entry, r: seq<string>)
    requires Valid(e) && |r| == NumFields && MoreData(e, r).Ok?
    ensures FoldAll(e, [r]) == Ok(MoreData(e, r).value)
  {
    assert [r][0] == r && [r][1..] == [];
  }

  lemma FoldAllTwo(e: Entry, r: seq<string>, s: seq<string>, e1: Entry, e2: Entry)
    requires Valid(e) && |r| == NumFields && |s| == NumFields
    requires MoreData(e, r) == Ok(e1) && MoreData(e1, s) == Ok(e2)
    ensures FoldAll(e, [r, s]) == Ok(e2)
  {
    assert [r, s][0] == r && [r, s][1..] == [s];
    FoldAllOne(e1, s);
  }
}

=== FILE: sorting.dfy ===
/** Python's `sorted()` on a list of integers, and the fact that a sorted list is
    determined by its elements: comparing `sorted(xs)` with a literal list is the same as
    comparing multisets. */
module Sorting {

  predicate Sorted(s: seq<int>) {
    forall i, j :: 0 <= i < j < |s| ==> s[i] <= s[j]
  }

  /** Put `x` in front of the first element that is not smaller than it. */
  function Insert(x: int, s: seq<int>): (r: seq<int>)
    requires Sorted(s)
    ensures Sorted(r)
    ensures multiset(r) == multiset(s) + multiset{x}
    decreases |s|
  {
    if |s| == 0 || x <= s[0] then [x] + s
    else
      var tail := Insert(x, s[1..]);
      HeadBelowRest(s, x);
      BelowAll(s[0], tail, multiset(s[1..]) + multiset{x});
      [s[0]] + tail
  }

  /** The head of a sorted sequence is below the rest and below anything bigger than it. */
  lemma HeadBelowRest(s: seq<int>, x: int)
    requires Sorted(s) && |s| > 0 && s[0] < x
    ensures forall y :: y in multiset(s[1..]) + multiset{x} ==> s[0] <= y
    ensures multiset(s) == multiset{s[0]} + multiset(s[1..])
  {
    assert s == [s[0]] + s[1..];
    forall y | y in multiset(s[1..]) + multiset{x} ensures s[0] <= y {
      if y != x {
        assert y in s[1..];
      }
    }
  }

  /** A value below every element of a sorted sequence can be put in front of it. */
  lemma BelowAll(h: int, t: seq<int>, m: multiset<int>)
    requires Sorted(t) && multiset(t) == m
    requires forall y :: y in m ==> h <= y
    ensures Sorted([h] + t)
  {
    forall i | 0 <= i < |t| ensures h <= t[i] {
      assert t[i] in multiset(t);
    }
  }

  /** `sorted(s)`: an ordered rearrangement of `s`. */
  function Sort(s: seq<int>): (r: seq<int>)
    ensures Sorted(r)
    ensures multiset(r) == multiset(s)
    decreases |s|
  {
    if |s| == 0 then []
    else
      assert s == [s[0]] + s[1..];
      Insert(s[0], Sort(s[1..]))
  }

  /** Two sorted sequences with the same elements are equal. */
  lemma {:induction false} SortedUnique(a: seq<int>, b: seq<int>)
    requires Sorted(a) && Sorted(b)
    requires multiset(a) == multiset(b)
    ensures a == b
    decreases |a|
  {
    if |a| == 0 {
      assert |multiset(b)| == 0;
    } else {
      assert a[0] in multiset(b);
      assert |b| > 0;
      assert b[0] in multiset(a);
      assert a[0] <= b[0] by {
        var j :| 0 <= j < |a| && a[j] == b[0];
      }
      assert b[0] <= a[0] by {
        var j :| 0 <= j < |b| && b[j] == a[0];
      }
      assert a == [a[0]] + a[1..];
      assert b == [b[0]] + b[1..];
      assert multiset(a) == multiset{a[0]} + multiset(a[1..]);
      assert multiset(b) == multiset{b[0]} + multiset(b[1..]);
      assert a[0] == b[0];
      assert multiset(a[1..]) == multiset(a) - multiset{a[0]};
      assert multiset(b[1..]) == multiset(b) - multiset{b[0]};
      SortedUnique(a[1..], b[1..]);
    }
  }

  /** `sorted(s) == t` for a sorted `t` exactly when `s` and `t` hold the same elements. */
  lemma SortEqualsIff(s: seq<int>, t: seq<int>)
    requires Sorted(t)
    ensures Sort(s) == t <==> multiset(s) == multiset(t)
  {
    if multiset(s) == multiset(t) {
      SortedUnique(Sort(s), t);
    }
  }
}

=== FILE: strings.dfy ===
/** The pieces of Python's `str` that the SBS-1 core relies on: `split` with an explicit
    separator, its inverse `join`, `isnumeric` on ASCII text and `int()` on text. */
module Strings {
  import opened Results

  /** True when `sep` occurs somewhere in `s`. */
  predicate Contains(s: string, sep: string)
    decreases |s|
  {
    |sep| <= |s| && (s[..|sep|] == sep || Contains(s[1..], sep))
  }

  /** `sep.join(pieces)`. */
  function Join(pieces: seq<string>, sep: string): (s: string)
    requires |pieces| > 0
    ensures |s| >= |pieces[0]|
    decreases |pieces|
  {
    if |pieces| == 1 then pieces[0] else pieces[0] + sep + Join(pieces[1..], sep)
  }

  /** `s.split(sep)`: cut `s` at every non-overlapping occurrence of `sep`, scanning left
      to right. The pieces never contain `sep`, and joining them back gives `s`. */
  function Split(s: string, sep: string): (pieces: seq<string>)
    requires |sep| > 0
    ensures |pieces| > 0
    ensures Join(pieces, sep) == s
    ensures forall k :: 0 <= k < |pieces| ==> !Contains(pieces[k], sep)
    decreases |s|
  {
    if |s| < |sep| then
      NoRoomNoOccurrence(s, sep);
      [s]
    else if s[..|sep|] == sep then
      [""] + Split(s[|sep|..], sep)
    else
      var rest := Split(s[1..], sep);
      var first := [s[0]] + rest[0];
      JoinPrefix(rest, sep);
      FirstPieceStaysFree(s, sep, rest[0]);
      [first] + rest[1..]
  }

  lemma NoRoomNoOccurrence(s: string, sep: string)
    requires |s| < |sep|
    ensures !Contains(s, sep)
  {
  }

  /** The first piece is a prefix of the joined text. */
  lemma JoinPrefix(pieces: seq<string>, sep: string)
    requires |pieces| > 0
    ensures pieces[0] <= Join(pieces, sep)
  {
  }

  /** Extending a separator-free tail by one character that does not start an occurrence
      keeps it separator-free. */
  lemma FirstPieceStaysFree(s: string, sep: string, tail: string)
    requires |sep| > 0 && |s| >= |sep| && s[..|sep|] != sep
    requires tail <= s[1..] && !Contains(tail, sep)
    ensures !Contains([s[0]] + tail, sep)
  {
    var p := [s[0]] + tail;
    if |sep| <= |p| {
      assert p[..|sep|] == s[..|sep|];
      assert p[1..] == tail;
    }
  }

  /** Text that ends right where the first occurrence of the separator begins splits off
      as a whole: `s + sep + rest` splits into `s` followed by the pieces of `rest`. The
      requirement is that `sep` does not start anywhere inside `s`, which is exactly that it
      does not occur in `s` extended by all but the last character of `sep`. */
  lemma {:induction false} SplitAfterFreePrefix(s: string, sep: string, rest: string)
    requires |sep| > 0 && !Contains(s + sep[..|sep| - 1], sep)
    ensures Split(s + sep + rest, sep) == [s] + Split(rest, sep)
    decreases |s|
  {
    var t := s + sep + rest;
    if |s| == 0 {
      assert t == sep + rest;
      assert t[..|sep|] == sep;
      assert t[|sep|..] == rest;
    } else {
      var u := s + sep[..|sep| - 1];
      assert t[..|sep|] == u[..|sep|];
      assert u[1..] == s[1..] + sep[..|sep| - 1];
      assert t[1..] == s[1..] + sep + rest;
      SplitAfterFreePrefix(s[1..], sep, rest);
      assert [s[0]] + s[1..] == s;
    }
  }

  /** A text without the separator's first character holds no start of the separator,
      even when the separator follows it. */
  lemma {:induction false} FreeBeforeSeparator(s: string, sep: string)
    requires |sep| > 0 && sep[0] !in s
    ensures !Contains(s + sep[..|sep| - 1], sep)
    decreases |s|
  {
    var u := s + sep[..|sep| - 1];
    if |sep| <= |u| {
      assert u[..|sep|][0] == s[0] && s[0] in s;
      assert u[1..] == s[1..] + sep[..|sep| - 1];
      assert forall c :: c in s[1..] ==> c in s;
      FreeBeforeSeparator(s[1..], sep);
    }
  }

  /** `sep.join` then `split(sep)` gives back the pieces when no piece holds the
      separator's first character: a record survives being written out and parsed again. */
  lemma {:induction false} SplitJoin(pieces: seq<string>, sep: string)
    requires |pieces| > 0 && |sep| > 0
    requires forall k :: 0 <= k < |pieces| ==> sep[0] !in pieces[k]
    ensures Split(Join(pieces, sep), sep) == pieces
    decreases |pieces|
  {
    if |pieces| == 1 {
      FreeSplitsToItself(pieces[0], sep);
    } else {
      SplitJoin(pieces[1..], sep);
      FreeBeforeSeparator(pieces[0], sep);
      SplitAfterFreePrefix(pieces[0], sep, Join(pieces[1..], sep));
      assert [pieces[0]] + pieces[1..] == pieces;
    }
  }

  /** A text without the separator's first character is a single piece. */
  lemma {:induction false} FreeSplitsToItself(s: string, sep: string)
    requires |sep| > 0 && sep[0] !in s
    ensures Split(s, sep) == [s]
    decreases |s|
  {
    if |s| >= |sep| {
      assert s[0] in s;
      assert s[..|sep|][0] == s[0] != sep[0];
      FreeSplitsToItself(s[1..], sep);
      assert [s[0]] + s[1..] == s;
    }
  }

  /** A character that occurs in no piece and not in the separator does not occur in the
      joined text. */
  lemma {:induction false} JoinFree(pieces: seq<string>, sep: string, c: char)
    requires |pieces| > 0 && c !in sep
    requires forall k :: 0 <= k < |pieces| ==> c !in pieces[k]
    ensures c !in Join(pieces, sep)
    decreases |pieces|
  {
    if |pieces| > 1 {
      JoinFree(pieces[1..], sep, c);
      assert c !in pieces[0];
    }
  }

  /** A one-character separator cuts `s` into one more piece than it has occurrences. */
  lemma {:induction false} SplitCount(s: string, c: char)
    ensures |Split(s, [c])| == multiset(s)[c] + 1
    decreases |s|
  {
    if |s| > 0 {
      assert s == [s[0]] + s[1..];
      SplitCount(s[1..], c);
      if s[..1] == [c] {
        assert s[1..] == s[|[c]|..];
      }
    }
  }

  // ---- digits and integers -------------------------------------------------------------

  predicate IsDigit(c: char) { '0' <= c <= '9' }

  /** `s.isnumeric()` on ASCII text: non-empty and every character a decimal digit. */
  predicate IsNumeric(s: string)
    ensures IsNumeric(s) ==> '-' !in s && '+' !in s
  {
    |s| > 0 && forall i :: 0 <= i < |s| ==> IsDigit(s[i])
  }

  function DigitValue(c: char): (d: nat)
    requires IsDigit(c)
    ensures d < 10
  {
    (c as int) - ('0' as int)
  }

  function DigitChar(d: nat): (c: char)
    requires d < 10
    ensures IsDigit(c) && DigitValue(c) == d
  {
    (('0' as int) + d) as char
  }

  /** The value of a run of decimal digits, most significant first. */
  function DigitsValue(s: string): nat
    requires forall i :: 0 <= i < |s| ==> IsDigit(s[i])
    decreases |s|
  {
    if |s| == 0 then 0 else DigitsValue(s[..|s| - 1]) * 10 + DigitValue(s[|s| - 1])
  }

  /** `str(n)` for a natural number: a numeric text whose value is `n`. */
  function NatToDecimal(n: nat): (s: string)
    ensures IsNumeric(s)
    ensures DigitsValue(s) == n
    decreases n
  {
    if n < 10 then [DigitChar(n)]
    else
      var s := NatToDecimal(n / 10) + [DigitChar(n % 10)];
      assert s[..|s| - 1] == NatToDecimal(n / 10);
      s
  }

  /** `str(n)` for any integer. */
  function IntToDecimal(n: int): string {
    if n < 0 then "-" + NatToDecimal(-n) else NatToDecimal(n)
  }

  /** Python's `int(text)`: an optional sign followed by at least one decimal digit;
      `None` stands for the `ValueError` it raises on anything else. */
  function ParseInt(s: string): (r: Option<int>)
    ensures r.Some? <==> IsNumeric(s) || (|s| > 1 && (s[0] == '-' || s[0] == '+') && IsNumeric(s[1..]))
    ensures IsNumeric(s) ==> r == Some(DigitsValue(s))
  {
    if IsNumeric(s) then Some(DigitsValue(s))
    else if |s| > 1 && (s[0] == '-' || s[0] == '+') && IsNumeric(s[1..]) then
      var magnitude: int := DigitsValue(s[1..]);
      Some(if s[0] == '-' then -magnitude else magnitude)
    else None
  }

  /** `int(str(n)) == n` for every integer. */
  lemma ParseIntRoundTrip(n: int)
    ensures ParseInt(IntToDecimal(n)) == Some(n)
  {
    if n < 0 {
      var t := IntToDecimal(n);
      assert t[1..] == NatToDecimal(-n);
      assert !IsDigit(t[0]);
    }
  }
}
